=== FILE: README.md ===
# CPU utility: stress controller, command bridge and sensor selection

This project is a Dafny model of the core of a Windows CPU utility. The
utility has two parts:

- A native library (`NativeDLL/CPUUtilityNative.cpp`). It starts, pauses,
  resumes and stops a multi-threaded CPU stress load. It runs prime-counting
  benchmarks and reports CPU identity.
- A desktop window (`CSharpGUI/Form1.cs`). It hosts a web page and answers the
  page's JSON commands. Each answer is a reply `{id, replyTo, result}` or a
  broadcast `{broadcast, result}`.

Modules, one file each:

| file | module | what it models |
|---|---|---|
| `common.dfy` | `Common` | `Option`, the 32-bit integers of the C and JSON boundaries, ordinal `String.Contains`, trimming |
| `stress_engine.dfy` | `StressEngine` | the native globals `stressRunning`, `stressPaused` and the worker list; the calls start, stop, pause, resume and thread count |
| `sorting.dfy` | `Sorting` | ascending sort of run scores; a sorted permutation is unique |
| `benchmark.dfy` | `Benchmark` | run-count clamping, the progress callback sequence, median selection, the prime-range split among threads |
| `cpu_info.dfy` | `CpuInfo` | `GetCPUInfo`: brand-string trimming, the core estimate, the clock fallbacks |
| `sensors.dfy` | `Sensors` | the metrics handler's pass over the hardware-monitor devices, and the sensor listing |
| `envelope.dfy` | `Envelope` | reply and broadcast envelopes and their result payloads |
| `bridge.dfy` | `Bridge` | command routing with aliases, argument defaults, the window's `isPaused` flag, whole sessions of requests |

Inputs. Whatever the machine reports is an input of the model:

- the CPUID brand string and its parsed clock;
- the registry clock;
- the processor count;
- the monitor's devices and sensor values;
- each benchmark run's measured score;
- the native metrics, RAM figures and clock text;
- the application directory and the file system's answer.

Each operation is paired with an independent statement of what it computes,
and lemmas connect the two:

- The handler's sensor pass is a fold. It is proved equal to a reference
  definition: "the first present reading from the last Package candidate on".
- The engine's transitions are checked against a lifecycle relation.
- The benchmark's sorted-index pick is shown to be independent of run order.
- The window's paused flag is proved to track the engine over any serial
  sequence of requests.

Two edge cases of the handler are worth knowing:

- `startStress` whose `args` is missing or not an object gets no reply. The
  property lookup on the undefined `JsonElement` throws, the outer handler
  swallows the exception, and nothing is posted (`Bridge.StressThreadsArg`,
  `Form1.cs:142`, `Form1.cs:150-151`).
- A hardware-monitor exception midway through the metrics pass ends the
  pass. Readings already found are kept (`Sensors.FailureEndsSweep`,
  `Form1.cs:305-364`). When the first device fails, all three are unset
  (`Sensors.ProviderFailureLeavesUnset`).

## Model

| member | source | states |
|---|---|---|
| Common.ToInt32 | NativeDLL/CPUUtilityNative.cpp:441 | storing a `DWORD` into an `int` keeps the value congruent mod 2^32, is the identity below 2^31, and never turns a non-zero count into 0 |
| Common.ContainsIffOccurs | CSharpGUI/Form1.cs:322 | the name test used by the sensor pass holds exactly when the substring occurs at some index |
| StressEngine.Start | NativeDLL/CPUUtilityNative.cpp:85-97 | start succeeds exactly when not running; a refusal changes nothing; success gives running, unpaused, with `max(0, threadCount)` workers; the move is a permitted lifecycle move |
| StressEngine.Stop | NativeDLL/CPUUtilityNative.cpp:99-112 | stop succeeds exactly when running; success leaves the engine idle with no workers; the paused flag is left as it was; a valid engine stays valid |
| StressEngine.Pause | NativeDLL/CPUUtilityNative.cpp:114-118 | pause succeeds exactly when running, then the engine is paused with the same workers; otherwise nothing changes |
| StressEngine.Resume | NativeDLL/CPUUtilityNative.cpp:120-124 | resume succeeds exactly when running, then the engine runs unpaused with the same workers; otherwise nothing changes |
| StressEngine.ActiveThreadCount | NativeDLL/CPUUtilityNative.cpp:126-128 | the worker count is never negative, and an engine that is not running (and is valid) reports zero |
| StressEngine.StopKeepsPausedFlag | NativeDLL/CPUUtilityNative.cpp:85-112 | stopping a paused load leaves the native paused flag set, and the next start clears it |
| Sorting.Sort | NativeDLL/CPUUtilityNative.cpp:341 | the result is an ascending permutation of the scores |
| Sorting.SortedPermutationUnique | NativeDLL/CPUUtilityNative.cpp:341-342 | two ascending sequences with the same elements are equal, so the sorted index pick is well defined |
| Benchmark.ClampRuns | NativeDLL/CPUUtilityNative.cpp:285-287 | the run count lies in [1, 10], equals the request when that is in range, and is the nearest value in [1, 10] to the request |
| Benchmark.ClampRunsIdempotent | NativeDLL/CPUUtilityNative.cpp:285-287 | clamping an already clamped count changes nothing |
| Benchmark.WorkerThreads | NativeDLL/CPUUtilityNative.cpp:282-283 | the worker count is the hardware concurrency whenever that is non-zero, and the fallback of 4 when it is 0 |
| Benchmark.ProgressEvents | NativeDLL/CPUUtilityNative.cpp:290-292 | with a callback there is one event per run, numbered within [1, n] with total n, strictly increasing; without a callback there are none |
| Benchmark.OrderedProgressIsOneToN | NativeDLL/CPUUtilityNative.cpp:291-292 | n strictly increasing run numbers within [1, n] are exactly 1, 2, ..., n |
| Benchmark.Median | NativeDLL/CPUUtilityNative.cpp:340-342 | the returned score is one of the measured scores and is the element at index n/2 of every ascending arrangement of them |
| Benchmark.MedianIgnoresRunOrder | NativeDLL/CPUUtilityNative.cpp:340-342 | reordering the run scores does not change the returned score |
| Benchmark.FixedRunScore | NativeDLL/CPUUtilityNative.cpp:131-261 | the fixed five-run benchmarks return index 2 of the sorted scores, which is one of the five measured scores |
| Benchmark.RunMultiCoreBenchmarkWithProgress | NativeDLL/CPUUtilityNative.cpp:264-348 | with a callback the events are (1, n), (2, n), ... (n, n) in order for the clamped run count n, without one there are none; the score is the n/2-th smallest of the run scores |
| Benchmark.Partition | NativeDLL/CPUUtilityNative.cpp:297-305 | one range per thread, the first starting at 2, the last ending at the limit, each ending where the next begins |
| Benchmark.PartitionCovers | NativeDLL/CPUUtilityNative.cpp:297-305 | every number from 2 to the limit is tested by some thread |
| Benchmark.PartitionWithinBounds | NativeDLL/CPUUtilityNative.cpp:297-305 | with at least two numbers per thread every range lies within [2, limit] |
| Benchmark.BenchmarkRangesWithinLimit | NativeDLL/CPUUtilityNative.cpp:282-305 | with the benchmark's own limit of 5,000,000 and worker count, and up to 2,500,000 hardware threads, every thread's range lies within [2, 5,000,000] |
| CpuInfo.ModelName | NativeDLL/CPUUtilityNative.cpp:426-436 | the model name is the brand string minus its leading spaces, or empty when the CPU has no brand string |
| CpuInfo.EstimateCores | NativeDLL/CPUUtilityNative.cpp:444-445 | with two or more logical processors the estimate is half of them rounded down; with 0 or 1 it equals the processor count; it is never 0 unless the count is |
| CpuInfo.MaxMHz | NativeDLL/CPUUtilityNative.cpp:448-469 | a non-zero brand-string clock wins; failing that a positive registry value; failing that 2400; the result is never 0 |
| CpuInfo.GetCPUInfo | NativeDLL/CPUUtilityNative.cpp:416-472 | the call fails exactly when an output pointer is null; otherwise the model name is the brand string without leading spaces, threads is the processor count stored as `int`, cores is the half-or-all estimate of threads, and the clock is the brand figure when there is a brand string with a non-zero figure, else the positive registry value stored as `int`, else 2400 MHz |
| Sensors.SelectReadings | CSharpGUI/Form1.cs:305-363 | temperature and power are the first present reading among the qualifying CPU sensors, counted from the last "Package" one on; voltage is the first present reading among CPU voltage sensors and each motherboard's first core-voltage sensor; only devices before a failing refresh count |
| Sensors.PreferFoldIsPreferred | CSharpGUI/Form1.cs:320-326 | folding the "prefer Package, else first" update over candidates gives the reference choice |
| Sensors.SweepPrefers | CSharpGUI/Form1.cs:311-344 | the device pass yields for temperature and power the preference fold over the CPU candidates of the reached devices |
| Sensors.SweepVoltage | CSharpGUI/Form1.cs:311-358 | the device pass yields as voltage the first present reading among the voltage candidates, keeping an earlier one |
| Sensors.CoreVoltageSensor | CSharpGUI/Form1.cs:348-356 | at most one sensor is picked; one is picked exactly when some voltage sensor names "CPU", "VCore" or "Vcore"; the pick is the first such sensor in the device's order |
| Sensors.MotherboardVoltageIsCandidate | CSharpGUI/Form1.cs:346-357 | the motherboard scan yields the reading of that first core-voltage sensor, even when it has no reading, and ignores every later one |
| Sensors.PreferredWhenAllPresent | CSharpGUI/Form1.cs:320-326 | when all candidates have readings, the last "Package" one wins, else the first one |
| Sensors.VoltageNeverOverwritten | CSharpGUI/Form1.cs:329-331 | once a voltage is found, no later device replaces it |
| Sensors.NoCpuNoTemperatureOrPower | CSharpGUI/Form1.cs:315 | without CPU devices there is no temperature and no power reading |
| Sensors.FailureEndsSweep | CSharpGUI/Form1.cs:309-363 | a device whose refresh throws hides every later device |
| Sensors.ProviderFailureLeavesUnset | CSharpGUI/Form1.cs:309-363 | when the first refresh throws, all three readings are absent |
| Sensors.PackageTemperatureExample | CSharpGUI/Form1.cs:319-326 | "CPU Temp" 50 then "Package Temp" 60 gives 60 |
| Sensors.CpuTemperatureExample | CSharpGUI/Form1.cs:319-326 | "CPU Temp" 50 alone gives 50 |
| Sensors.VoltageFallbackExample | CSharpGUI/Form1.cs:345-357 | with no CPU voltage sensor, a motherboard "VCore" 1.25 gives 1.25 |
| Sensors.Listing | CSharpGUI/Form1.cs:237-257 | the listing holds every sensor of every device reached before a failing refresh, with its device's name and kind, and nothing else |
| Sensors.ListingOrder | CSharpGUI/Form1.cs:240-253 | the listing goes device by device and, within a device, in sensor order: sensor j of the k-th reached device is at the position right after the sensors of the k devices before it |
| Bridge.RouteMatchesTable | CSharpGUI/Form1.cs:146-400 | a command name reaches a handler exactly when it is one of that handler's names, aliases included; any other name reaches none |
| Bridge.StressThreadsResolution | CSharpGUI/Form1.cs:150-151 | `numProcesses` wins over `threads`, which wins over 4; a non-integer `numProcesses`, or a non-integer `threads` with no `numProcesses`, or non-object `args` drops the request |
| Bridge.BenchmarkRunsArg | CSharpGUI/Form1.cs:268-278 | the run count is `numRuns` when present as an integer, 3 otherwise |
| Bridge.PathArg | CSharpGUI/Form1.cs:227 | a string `path` is used as is, a null one becomes the empty path; a missing `path`, one of another type, or non-object `args` gives no path |
| Bridge.FileExistsAnswersPath | CSharpGUI/Form1.cs:225-231 | `fileExists` leaves the state alone and replies with the file system's answer for the path, or posts nothing when there is no readable path |
| Bridge.DirectoryAndSensorQueriesReply | CSharpGUI/Form1.cs:219-257 | `getAppDir` and `getHardwareSensors` are always answered, with the application directory and with the sensor listing, and change nothing |
| Common.Trim | CSharpGUI/Form1.cs:208-209 | the reported name is a contiguous part of the model name, with only white space removed on either side, and neither starts nor ends with white space |
| Bridge.Handle | CSharpGUI/Form1.cs:135-407 | nothing is posted exactly when `startStress`'s worker count or `fileExists`'s path cannot be read, and then nothing changes; every other request gets broadcasts followed by one reply echoing its id and name; an unknown name gets the "Unknown command" error; only stress-control commands change state |
| Bridge.StartUsesResolvedThreadCount | CSharpGUI/Form1.cs:148-155 | start is dropped exactly when the thread count cannot be read; otherwise an idle engine runs that many workers and reports success, and a running engine refuses with "Failed to start" and nothing changes |
| Bridge.StopClearsPauseFlag | CSharpGUI/Form1.cs:157-163 | stop always clears the window's paused flag and reports the engine's answer |
| Bridge.ToggleReportsTarget | CSharpGUI/Form1.cs:165-181 | the toggle reports the opposite of the flag as its target even on failure, succeeds exactly when the engine runs, and moves the flag only then |
| Bridge.ResumeClearsOnlyOnSuccess | CSharpGUI/Form1.cs:183-189 | resume clears the flag only when the engine resumed |
| Bridge.StatusIsAQuery | CSharpGUI/Form1.cs:191-196 | the status reports running as a non-zero worker count, the window's flag, and the count, and changes nothing |
| Bridge.BenchmarkStreamsProgressThenReplies | CSharpGUI/Form1.cs:262-294 | the benchmark posts n progress broadcasts numbered 1 to n, then a reply whose success is a positive median score |
| Bridge.MetricsCarrySelectedReadings | CSharpGUI/Form1.cs:296-393 | the metrics reply carries the native load and clock and the selected temperature, voltage and power |
| Bridge.CpuInfoReply | CSharpGUI/Form1.cs:198-217 | the CPU reply always succeeds and changes nothing; name and model are both the native model name trimmed of white space; cores, threads, logical processors and the non-zero clock are the native call's values |
| Bridge.SessionKeepsCoherent | CSharpGUI/Form1.cs:157-189 | over any serial sequence of requests, the window's paused flag equals the engine's running-and-paused, and a stopped engine holds no workers |
| Bridge.PauseFlagMatchesEngine | CSharpGUI/Form1.cs:191-196 | after any serial session from launch, the status query's paused field matches the engine's state, although native stop leaves its own flag set |
| Bridge.WorkersOnlyWhileRunning | CSharpGUI/Form1.cs:191-196 | after any serial session from launch, a non-zero `GetActiveThreadCount` implies a stress test is running, and a stopped test reports zero workers |
| Bridge.PauseResumeRoundTrip | CSharpGUI/Form1.cs:148-194 | start(4), toggle, toggle: paused then running again, with the status showing each |
| Bridge.ZeroWorkerStartLooksStopped | CSharpGUI/Form1.cs:148-194 | a start with 0 workers succeeds, the status then says not running, and a second start is refused |
| Bridge.UnknownCommandExample | CSharpGUI/Form1.cs:398-400 | an unknown command is answered with the "Unknown command" error under its own id and name |

## Left out

- The stress workers (`StressWorker`, `CPUUtilityNative.cpp:22-83`) are left out. So are the prime-counting loops, warm-up, sleeps and thread priorities. They generate load and timing only. A worker is kept as its contribution to the thread count, and each run's score is an input.
- StressEngine.Start: a failed thread creation is not modelled. `emplace_back` throws when the system cannot create another thread, after `stressRunning` is already set, and the exception leaves the exported function. The model always gives `max(0, threadCount)` workers, however large the count.
- `Benchmark.RunMultiCoreBenchmarkWithProgress`: doubles are modelled as reals. NaN and infinite scores are not modelled.
- `GetHardwareMetrics` (`CPUUtilityNative.cpp:350-414`) is not modelled: it is PDH counter I/O with floating point. Its load and clock are inputs of the metrics reply.
- CPUID, the registry query and the `sscanf` parse of "@ x.xxGHz" are I/O or C library calls. They are inputs: `brand`, `registryMHz`, and `brandMHz` already truncated to MHz.
- Sensors.HardwareKind and Sensors.SensorKind keep only the kinds the metrics pass tests (CPU and motherboard; temperature, voltage and power). Every other `HardwareType` or `SensorType` is folded into one `Other` value, so the sensor listing's type strings for those kinds are not modelled.
- `maxClockGHz` of the CPU reply is a floating-point division of `maxClockMHz`, so it is left out.
- `Bridge.IsWhiteSpace` covers ASCII white space, U+0085 and U+00A0. The other Unicode separators `String.Trim` removes are not modelled. A CPUID brand string holds ASCII.
- RAM figures, the UTC timestamp, the application directory and `File.Exists` are I/O. They are inputs.
- JSON decoding and serialization are not modelled. A request whose `id` or `cmd` is missing or not a string is not modelled. A `Reply` or `Broadcast` that fails to post is not modelled.
- `getHardwareSensors`, `runMultiCoreBenchmark` and `getHardwareMetrics` answer from a background task. The model posts their messages at once, in order, and `Bridge.Session` treats requests as strictly serial. Interleaving with other requests' replies is not modelled.
- The web-view setup, icon loading, `create_icon.py` and the header file are presentation or declarations. `DllMain`'s stop on unload happens at process exit.
- The two fixed-run benchmarks (`RunSingleCoreBenchmark`, `RunMultiCoreBenchmark`) are not bridged to any command. Only their score selection is modelled, by `Benchmark.FixedRunScore`.

=== FILE: benchmark.dfy ===
/** Bookkeeping of the native benchmarks: how many runs are made, which
    progress events the caller's callback receives, which run score is
    returned, and how the prime-counting range is split among worker
    threads. The timed runs themselves are an input: `runScore(i)` is the
    score the run with index `i` measured. */
module Benchmark {
  import opened Common
  import opened Sorting

  const MinRuns := 1
  const MaxRuns := 10
  /** Runs made by the two benchmarks without a progress callback. */
  const FixedRuns := 5
  /** Largest number tested for primality in the multi-core benchmarks. */
  const PrimeLimit := 5_000_000
  /** Worker count used when the hardware reports no concurrency. */
  const FallbackThreads := 4

  /** Distance between a run count and a requested one. */
  function Dist(a: int, b: Int32): nat
  {
    if a < b as int then b as int - a else a - b as int
  }

  /** Run count of `RunMultiCoreBenchmarkWithProgress`: `numRuns` pulled into [1, 10]. */
  function ClampRuns(numRuns: Int32): (n: int)
    ensures MinRuns <= n <= MaxRuns
    ensures MinRuns <= numRuns as int <= MaxRuns ==> n == numRuns as int
    ensures forall m :: MinRuns <= m <= MaxRuns ==> Dist(n, numRuns) <= Dist(m, numRuns)
  {
    var atLeastOne := if numRuns < 1 then 1 else numRuns as int;
    if atLeastOne > 10 then 10 else atLeastOne
  }

  /** Clamping twice changes nothing. */
  lemma ClampRunsIdempotent(numRuns: Int32)
    ensures ClampRuns(ClampRuns(numRuns) as Int32) == ClampRuns(numRuns)
  {
  }

  /** Worker threads of a multi-core benchmark: the hardware's concurrency, or 4 when it reports 0. */
  function WorkerThreads(hardwareConcurrency: nat): (n: nat)
    ensures n >= 1
    ensures hardwareConcurrency > 0 ==> n == hardwareConcurrency
    ensures hardwareConcurrency == 0 ==> n == FallbackThreads
  {
    if hardwareConcurrency == 0 then FallbackThreads else hardwareConcurrency
  }

  // ---------------------------------------------------------------- progress

  /** One invocation of the progress callback. */
  datatype Progress = Progress(currentRun: int, totalRuns: int)

  /** Events that report runs of an `n`-run benchmark in strictly increasing
      order, each within [1, n]. */
  predicate OrderedProgress(events: seq<Progress>, n: int)
  {
    && (forall i :: 0 <= i < |events| ==> events[i].totalRuns == n && 1 <= events[i].currentRun <= n)
    && (forall i :: 0 <= i < |events| - 1 ==> events[i].currentRun < events[i + 1].currentRun)
  }

  /** The callback invocations of an `n`-run benchmark: one before each run,
      none without a callback. */
  function ProgressEvents(hasCallback: bool, n: nat): (events: seq<Progress>)
    ensures |events| == if hasCallback then n else 0
    ensures OrderedProgress(events, n)
  {
    if hasCallback then seq(n, i => Progress(i + 1, n)) else []
  }

  /** Strictly increasing run numbers that fit in [1, n] and number n are
      exactly 1, 2, ..., n: the ordering contract fixes the whole stream. */
  lemma OrderedProgressIsOneToN(events: seq<Progress>, n: int)
    requires OrderedProgress(events, n) && |events| == n
    ensures forall i :: 0 <= i < n ==> events[i] == Progress(i + 1, n)
  {
    forall i | 0 <= i < n ensures events[i] == Progress(i + 1, n) {
      ProgressFloor(events, n, i);
      ProgressCeiling(events, n, i);
    }
  }

  lemma {:induction false} ProgressFloor(events: seq<Progress>, n: int, i: nat)
    requires OrderedProgress(events, n) && i < |events|
    ensures events[i].currentRun >= i + 1
    decreases i
  {
    if i > 0 {
      ProgressFloor(events, n, i - 1);
    }
  }

  lemma {:induction false} ProgressCeiling(events: seq<Progress>, n: int, i: nat)
    requires OrderedProgress(events, n) && i < |events| == n
    ensures events[i].currentRun <= i + 1
    decreases n - i
  {
    if i < n - 1 {
      ProgressCeiling(events, n, i + 1);
    }
  }

  // ---------------------------------------------------------------- scores

  /** Scores of runs 0 .. n-1, in run order. */
  function RunScores(n: nat, runScore: nat -> real): (scores: seq<real>)
    ensures |scores| == n
    ensures forall i :: 0 <= i < n ==> scores[i] == runScore(i)
  {
    seq(n, i requires 0 <= i => runScore(i))
  }

  /** The score a benchmark returns: the element at index `|scores| / 2` of
      the scores sorted ascending. */
  function Median(scores: seq<real>): (m: real)
    requires |scores| > 0
    ensures m in multiset(scores)
    ensures forall ss :: IsSortedPermutation(ss, scores) ==> m == ss[|scores| / 2]
  {
    var sorted := Sort(scores);
    assert |sorted| == |multiset(sorted)| == |scores|;
    assert forall ss :: IsSortedPermutation(ss, scores) ==> ss == sorted by {
      forall ss | IsSortedPermutation(ss, scores) ensures ss == sorted {
        SortedPermutationUnique(ss, sorted);
      }
    }
    assert sorted[|scores| / 2] in multiset(sorted);
    sorted[|scores| / 2]
  }

  /** The returned score depends on which scores were measured, not on the order of the runs. */
  lemma MedianIgnoresRunOrder(a: seq<real>, b: seq<real>)
    requires |a| > 0 && multiset(a) == multiset(b)
    ensures |b| == |a| && Median(a) == Median(b)
  {
    assert |a| == |multiset(a)| == |multiset(b)| == |b|;
    assert IsSortedPermutation(Sort(a), b);
  }

  /** `RunSingleCoreBenchmark` and `RunMultiCoreBenchmark`: five timed runs,
      sorted, and the one at index 2 returned. */
  function FixedRunScore(runScore: nat -> real): (score: real)
    ensures forall ss :: IsSortedPermutation(ss, RunScores(FixedRuns, runScore)) ==> score == ss[2]
    ensures exists i :: 0 <= i < FixedRuns && score == runScore(i)
  {
    var scores := RunScores(FixedRuns, runScore);
    var m := Median(scores);
    assert m in scores;
    m
  }

  /** `RunMultiCoreBenchmarkWithProgress`, for a callback that is present or
      absent: clamps the run count, reports each run to the callback before
      making it, and returns the median run score. */
  method RunMultiCoreBenchmarkWithProgress(hasCallback: bool, numRuns: Int32, runScore: nat -> real)
    returns (events: seq<Progress>, score: real)
    ensures var n := ClampRuns(numRuns);
      && |events| == (if hasCallback then n else 0)
      && OrderedProgress(events, n)
      && events == ProgressEvents(hasCallback, n)
      && (forall ss :: IsSortedPermutation(ss, RunScores(n, runScore)) ==> score == ss[n / 2])
      && score == Median(RunScores(n, runScore))
  {
    var n := ClampRuns(numRuns);
    events := [];
    var scores: seq<real> := [];
    var run := 0;
    while run < n
      invariant 0 <= run <= n
      invariant |events| == if hasCallback then run else 0
      invariant !hasCallback ==> events == []
      invariant hasCallback ==> forall i :: 0 <= i < run ==> events[i] == Progress(i + 1, n)
      invariant scores == RunScores(run, runScore)
    {
      if hasCallback {
        events := events + [Progress(run + 1, n)];
      }
      scores := scores + [runScore(run)];
      run := run + 1;
      assert scores == RunScores(run, runScore);
    }
    assert events == ProgressEvents(hasCallback, n);
    score := Median(scores);
  }

  // ---------------------------------------------------------------- work partition

  /** The inclusive range of numbers one worker thread tests. */
  datatype Range = Range(first: int, last: int)

  predicate Covers(r: Range, k: int)
  {
    r.first <= k <= r.last
  }

  /** Range of thread `t` of `numThreads`: `rangePerThread = limit / numThreads`
      numbers from `2 + t * rangePerThread`, the last thread running to `limit`. */
  function ThreadRange(t: nat, numThreads: nat, limit: nat): Range
    requires t < numThreads
  {
    var perThread := limit / numThreads;
    var first := 2 + t * perThread;
    Range(first, if t == numThreads - 1 then limit else first + perThread)
  }

  /** Consecutive ranges meet: each ends where the next begins. */
  predicate Chained(rs: seq<Range>)
  {
    forall t :: 0 <= t < |rs| - 1 ==> rs[t].last == rs[t + 1].first
  }

  /** The ranges of all threads, in thread order. */
  function Partition(numThreads: nat, limit: nat): (rs: seq<Range>)
    requires numThreads >= 1
    ensures |rs| == numThreads
    ensures forall t :: 0 <= t < numThreads ==> rs[t] == ThreadRange(t, numThreads, limit)
    ensures rs[0].first == 2 && rs[numThreads - 1].last == limit
    ensures Chained(rs)
  {
    var rs := seq(numThreads, t requires 0 <= t < numThreads => ThreadRange(t, numThreads, limit));
    forall t | 0 <= t < numThreads - 1 ensures rs[t].last == rs[t + 1].first {
      assert (t + 1) * (limit / numThreads) == t * (limit / numThreads) + limit / numThreads;
    }
    rs
  }

  /** A chain of ranges from `a` to `b` covers every number in [a, b]. */
  lemma {:induction false} ChainCovers(rs: seq<Range>, k: int)
    requires |rs| >= 1 && Chained(rs)
    requires rs[0].first <= k <= rs[|rs| - 1].last
    ensures exists t :: 0 <= t < |rs| && Covers(rs[t], k)
    decreases |rs|
  {
    if k > rs[0].last {
      assert |rs| > 1;
      ChainCovers(rs[1..], k);
      var t :| 0 <= t < |rs| - 1 && Covers(rs[1..][t], k);
      assert Covers(rs[t + 1], k);
    } else {
      assert Covers(rs[0], k);
    }
  }

  /** Every number from 2 to `limit` is tested by some thread. */
  lemma PartitionCovers(numThreads: nat, limit: nat, k: int)
    requires numThreads >= 1 && 2 <= k <= limit
    ensures exists t :: 0 <= t < numThreads && Covers(ThreadRange(t, numThreads, limit), k)
  {
    var rs := Partition(numThreads, limit);
    ChainCovers(rs, k);
    var t :| 0 <= t < |rs| && Covers(rs[t], k);
    assert rs[t] == ThreadRange(t, numThreads, limit);
  }

  /** With at least two numbers per thread every range is non-empty and lies within [2, limit]. */
  lemma PartitionWithinBounds(numThreads: nat, limit: nat, t: nat)
    requires 1 <= numThreads && t < numThreads && limit / numThreads >= 2
    ensures var r := ThreadRange(t, numThreads, limit); 2 <= r.first <= r.last <= limit
  {
    var per := limit / numThreads;
    assert numThreads * per <= limit;
    MulMonotone(t, numThreads - 1, per);
    assert (numThreads - 1) * per == numThreads * per - per;
    if t < numThreads - 1 {
      MulMonotone(t + 1, numThreads - 1, per);
      assert (t + 1) * per == t * per + per;
    }
  }

  /** In the benchmark itself, with up to 2,500,000 hardware threads, every
      thread's range lies within [2, 5,000,000]. */
  lemma BenchmarkRangesWithinLimit(hardwareConcurrency: nat, t: nat)
    requires hardwareConcurrency <= 2_500_000 && t < WorkerThreads(hardwareConcurrency)
    ensures var r := ThreadRange(t, WorkerThreads(hardwareConcurrency), PrimeLimit);
      2 <= r.first <= r.last <= PrimeLimit
  {
    var n := WorkerThreads(hardwareConcurrency);
    AtLeastTwoPerThread(n, PrimeLimit);
    PartitionWithinBounds(n, PrimeLimit, t);
  }

  lemma AtLeastTwoPerThread(n: nat, limit: nat)
    requires 1 <= n && 2 * n <= limit
    ensures limit / n >= 2
  {
    var q, m := limit / n, limit % n;
    assert limit == n * q + m && m < n;
    if q <= 1 {
      MulMonotone(q, 1, n);
      assert false;
    }
  }

  lemma MulMonotone(a: nat, b: nat, c: nat)
    requires a <= b
    ensures 0 <= a * c <= b * c
  {
  }
}

=== FILE: bridge.dfy ===
/** The window's message handler: it routes each request from the web page
    by its exact command name, resolves the arguments with their defaults,
    calls the native engine, keeps its own paused flag, and answers with
    reply and broadcast envelopes. Requests are handled one after another;
    whatever the machine, the clock, the file system or the benchmark
    timings report is an `Environment` input. */
module Bridge {
  import opened Common
  import opened Envelope
  import StressEngine
  import Benchmark
  import CpuInfo
  import Sensors

  // ---------------------------------------------------------------- requests

  /** A JSON value under a key of `args`, as far as the handler tells values apart. */
  datatype ArgValue =
    | IntArg(n: Int32)     // a number `GetInt32` accepts
    | StringArg(s: string)
    | NullArg
    | OtherArg             // any other JSON value: `GetInt32` and `GetString` throw on it

  /** The request's `args`: a JSON object, or anything else (missing, null,
      an array, a scalar), on which a property lookup throws. */
  datatype Args = NotAnObject | Fields(fields: map<string, ArgValue>)

  datatype Request = Request(id: string, cmd: string, args: Args)

  datatype Command =
    | StartStress | StopStress | TogglePause | ResumeStress | StressStatusQuery
    | CpuInfoQuery | AppDirQuery | FileExistsQuery | HardwareSensorsQuery
    | MultiCoreBenchmark | HardwareMetricsQuery

  /** The command table: the exact, case-sensitive names each command answers to. */
  function CommandNames(c: Command): set<string>
  {
    match c
    case StartStress => {"startStress"}
    case StopStress => {"stopStress"}
    case TogglePause => {"togglePauseResume", "pauseStress"}
    case ResumeStress => {"resumeStress"}
    case StressStatusQuery => {"getStressStatus"}
    case CpuInfoQuery => {"getCpuInfo", "getCPUInfo"}
    case AppDirQuery => {"getAppDir"}
    case FileExistsQuery => {"fileExists"}
    case HardwareSensorsQuery => {"getHardwareSensors"}
    case MultiCoreBenchmark => {"runMultiCoreBenchmark"}
    case HardwareMetricsQuery => {"getHardwareMetrics"}
  }

  /** The handler's `switch` on the command name. */
  function Route(cmd: string): Option<Command>
  {
    if cmd == "startStress" then Some(StartStress)
    else if cmd == "stopStress" then Some(StopStress)
    else if cmd == "togglePauseResume" || cmd == "pauseStress" then Some(TogglePause)
    else if cmd == "resumeStress" then Some(ResumeStress)
    else if cmd == "getStressStatus" then Some(StressStatusQuery)
    else if cmd == "getCpuInfo" || cmd == "getCPUInfo" then Some(CpuInfoQuery)
    else if cmd == "getAppDir" then Some(AppDirQuery)
    else if cmd == "fileExists" then Some(FileExistsQuery)
    else if cmd == "getHardwareSensors" then Some(HardwareSensorsQuery)
    else if cmd == "runMultiCoreBenchmark" then Some(MultiCoreBenchmark)
    else if cmd == "getHardwareMetrics" then Some(HardwareMetricsQuery)
    else None
  }

  /** Routing agrees with the command table in both directions, so every
      name, both aliases included, reaches exactly one command, and a name
      outside the table reaches none. */
  lemma RouteMatchesTable(cmd: string, c: Command)
    ensures Route(cmd) == Some(c) <==> cmd in CommandNames(c)
    ensures Route(cmd).None? ==> cmd !in CommandNames(c)
  {
  }

  // ---------------------------------------------------------------- arguments

  const DefaultStressThreads: Int32 := 4
  const DefaultBenchmarkRuns: Int32 := 3

  function GetInt32(v: ArgValue): Option<Int32>
  {
    if v.IntArg? then Some(v.n) else None
  }

  /** The worker count of `startStress`, or None when reading it throws. */
  function StressThreadsArg(args: Args): Option<Int32>
  {
    match args
    case NotAnObject => None
    case Fields(f) =>
      if "numProcesses" in f then GetInt32(f["numProcesses"])
      else if "threads" in f then GetInt32(f["threads"])
      else Some(DefaultStressThreads)
  }

  /** `numProcesses` wins over `threads`, which wins over the default 4; a
      key holding something other than an integer, or `args` that is not an
      object, makes the lookup throw. */
  lemma StressThreadsResolution(args: Args, v: Int32)
    ensures args.NotAnObject? ==> StressThreadsArg(args).None?
    ensures args.Fields? && "numProcesses" in args.fields && args.fields["numProcesses"] == IntArg(v)
      ==> StressThreadsArg(args) == Some(v)
    ensures args.Fields? && "numProcesses" !in args.fields && "threads" in args.fields && args.fields["threads"] == IntArg(v)
      ==> StressThreadsArg(args) == Some(v)
    ensures args.Fields? && "numProcesses" !in args.fields && "threads" !in args.fields
      ==> StressThreadsArg(args) == Some(4)
    ensures args.Fields? && "numProcesses" in args.fields && !args.fields["numProcesses"].IntArg?
      ==> StressThreadsArg(args).None?
    ensures args.Fields? && "numProcesses" !in args.fields && "threads" in args.fields && !args.fields["threads"].IntArg?
      ==> StressThreadsArg(args).None?
    ensures StressThreadsArg(args).Some? ==> args.Fields?
  {
  }

  /** The run count of `runMultiCoreBenchmark`: `numRuns` when it is there
      and reads as an integer, otherwise 3 (the handler catches the failure). */
  function BenchmarkRunsArg(args: Args): (runs: Int32)
    ensures args.Fields? && "numRuns" in args.fields && args.fields["numRuns"].IntArg?
      ==> runs == args.fields["numRuns"].n
    ensures !(args.Fields? && "numRuns" in args.fields && args.fields["numRuns"].IntArg?)
      ==> runs == DefaultBenchmarkRuns
  {
    if args.Fields? && "numRuns" in args.fields then
      match GetInt32(args.fields["numRuns"])
      case Some(n) => n
      case None => DefaultBenchmarkRuns
    else DefaultBenchmarkRuns
  }

  /** The `path` of `fileExists`: a JSON null reads as the empty string;
      anything else than a string or null, or a missing key, throws. */
  function PathArg(args: Args): (path: Option<string>)
    ensures path.Some? ==> args.Fields? && "path" in args.fields
    ensures args.Fields? && "path" in args.fields && args.fields["path"].StringArg?
      ==> path == Some(args.fields["path"].s)
    ensures args.Fields? && "path" in args.fields && args.fields["path"] == NullArg ==> path == Some("")
    ensures args.Fields? && "path" in args.fields && (args.fields["path"].IntArg? || args.fields["path"] == OtherArg)
      ==> path.None?
  {
    if args.Fields? && "path" in args.fields then
      match args.fields["path"]
      case StringArg(p) => Some(p)
      case NullArg => Some("")
      case _ => None
    else None
  }

  // ---------------------------------------------------------------- environment and state

  /** What the native `GetHardwareMetrics` reports. */
  datatype NativeMetrics = NativeMetrics(cpuLoad: real, cpuFreqMHz: int)

  /** Everything outside the handler that a request may observe. */
  datatype Environment = Environment(
    cpu: CpuInfo.CpuFacts,
    appDir: string,
    fileExists: string -> bool,
    devices: seq<Sensors.Device>,
    runScore: nat -> real,
    native: NativeMetrics,
    ram: RamUsage,
    clock: string)

  /** The native engine's globals and the window's own paused flag. */
  datatype State = State(engine: StressEngine.Engine, isPaused: bool)

  const Launched := State(StressEngine.Loaded, false)

  /** The state after a request, and the messages posted for it in order. */
  datatype Step = Step(state: State, out: seq<Message>)

  /** A reply to `req` carrying `result`. */
  function Respond(req: Request, result: Payload): (out: seq<Message>)
    ensures Answers(req, out) && |out| == 1
  {
    [ReplyMessage(Reply(req.id, req.cmd, result))]
  }

  /** The messages for one request: broadcasts, then one reply echoing the
      request's id and command name. */
  predicate Answers(req: Request, out: seq<Message>)
  {
    && |out| > 0
    && out[|out| - 1].ReplyMessage?
    && out[|out| - 1].reply.id == req.id
    && out[|out| - 1].reply.replyTo == req.cmd
    && forall i :: 0 <= i < |out| - 1 ==> out[i].BroadcastMessage?
  }

  /** Commands that call into the engine's start/stop/pause/resume. */
  predicate IsControl(c: Command)
  {
    c in {StartStress, StopStress, TogglePause, ResumeStress}
  }

  // ---------------------------------------------------------------- handlers

  /** .NET white space, restricted to the characters a brand string can hold. */
  predicate IsWhiteSpace(c: char)
  {
    c == ' ' || c == '\t' || c == '\n' || c == '\r' || c == '\U{000B}' || c == '\U{000C}'
    || c == '\U{0085}' || c == '\U{00A0}'
  }

  /** The reply to `getCpuInfo`. The handler passes valid output buffers,
      so the native call cannot fail here. */
  function CpuReport(facts: CpuInfo.CpuFacts): Payload
  {
    var info := CpuInfo.GetCPUInfo(true, facts).value;
    var name := Trim(info.modelName, IsWhiteSpace);
    CpuIdentity(true, name, name, info.cores as int, info.threads as int, info.threads as int, info.maxMHz as int)
  }

  function ProgressBroadcasts(events: seq<Benchmark.Progress>): (out: seq<Message>)
    ensures |out| == |events|
    ensures forall i :: 0 <= i < |events| ==>
      out[i] == BroadcastMessage(Broadcast(ProgressEventName, BenchmarkProgress(events[i].currentRun, events[i].totalRuns)))
  {
    seq(|events|, i requires 0 <= i < |events| =>
      BroadcastMessage(Broadcast(ProgressEventName, BenchmarkProgress(events[i].currentRun, events[i].totalRuns))))
  }

  /** Broadcasts followed by the reply to `req` carrying `result`. */
  function Answer(req: Request, broadcasts: seq<Message>, result: Payload): (out: seq<Message>)
    requires forall i :: 0 <= i < |broadcasts| ==> broadcasts[i].BroadcastMessage?
    ensures Answers(req, out)
    ensures |out| == |broadcasts| + 1 && out[..|broadcasts|] == broadcasts
    ensures out[|broadcasts|] == ReplyMessage(Reply(req.id, req.cmd, result))
  {
    broadcasts + Respond(req, result)
  }

  /** The messages of `runMultiCoreBenchmark`: a progress broadcast per run,
      then the reply with the median score. */
  function BenchmarkMessages(req: Request, env: Environment): (out: seq<Message>)
    ensures Answers(req, out)
  {
    var n := Benchmark.ClampRuns(BenchmarkRunsArg(req.args));
    var score := Benchmark.Median(Benchmark.RunScores(n, env.runScore));
    Answer(req, ProgressBroadcasts(Benchmark.ProgressEvents(true, n)), BenchmarkScore(score, score > 0.0))
  }

  /** `startStress`: nothing is posted when the worker count cannot be read. */
  function StartRequest(s: State, req: Request): (r: Step)
    ensures r.out == [] <==> StressThreadsArg(req.args).None?
    ensures r.out == [] ==> r.state == s
    ensures r.out == [] || Answers(req, r.out)
    ensures r.state.isPaused == s.isPaused
  {
    match StressThreadsArg(req.args)
    case None => Step(s, [])
    case Some(threads) =>
      var t := StressEngine.Start(s.engine, threads);
      Step(s.(engine := t.next), Respond(req, Ack(t.ok, if t.ok then "Stress test started" else "Failed to start")))
  }

  /** `fileExists`: nothing is posted when the path cannot be read. */
  function FileExistsRequest(s: State, req: Request, env: Environment): (r: Step)
    ensures r.out == [] <==> PathArg(req.args).None?
    ensures r.state == s
    ensures r.out == [] || Answers(req, r.out)
  {
    match PathArg(req.args)
    case None => Step(s, [])
    case Some(path) => Step(s, Respond(req, FileCheck(env.fileExists(path))))
  }

  /** The handler's branch for command `c`. */
  function Dispatch(c: Command, s: State, req: Request, env: Environment): (r: Step)
    ensures r.out == [] || Answers(req, r.out)
    ensures r.out == [] <==>
      ((c == StartStress && StressThreadsArg(req.args).None?) || (c == FileExistsQuery && PathArg(req.args).None?))
    ensures r.out == [] ==> r.state == s
    ensures r.state != s ==> IsControl(c)
  {
    match c
    case StartStress =>
      StartRequest(s, req)
    case StopStress =>
      var t := StressEngine.Stop(s.engine);
      Step(State(t.next, false), Respond(req, Ack(t.ok, if t.ok then "Stress test stopped" else "Failed to stop")))
    case TogglePause =>
      if s.isPaused then
        var t := StressEngine.Resume(s.engine);
        Step(State(t.next, if t.ok then false else s.isPaused),
             Respond(req, PauseToggle(t.ok, if t.ok then "Resumed" else "Failed to resume", false)))
      else
        var t := StressEngine.Pause(s.engine);
        Step(State(t.next, if t.ok then true else s.isPaused),
             Respond(req, PauseToggle(t.ok, if t.ok then "Paused" else "Failed to pause", true)))
    case ResumeStress =>
      var t := StressEngine.Resume(s.engine);
      Step(State(t.next, if t.ok then false else s.isPaused),
           Respond(req, Ack(t.ok, if t.ok then "Resumed" else "Failed to resume")))
    case StressStatusQuery =>
      var count := StressEngine.ActiveThreadCount(s.engine);
      Step(s, Respond(req, StressStatus(count > 0, s.isPaused, count)))
    case CpuInfoQuery =>
      Step(s, Respond(req, CpuReport(env.cpu)))
    case AppDirQuery =>
      Step(s, Respond(req, AppDirectory(env.appDir)))
    case FileExistsQuery =>
      FileExistsRequest(s, req, env)
    case HardwareSensorsQuery =>
      Step(s, Respond(req, SensorList(Sensors.Listing(env.devices))))
    case MultiCoreBenchmark =>
      Step(s, BenchmarkMessages(req, env))
    case HardwareMetricsQuery =>
      var readings := Sensors.SelectReadings(env.devices);
      Step(s, Respond(req, HardwareMetrics(env.native.cpuLoad, env.native.cpuFreqMHz,
                                           readings.tempC, readings.voltage, readings.power, env.ram, env.clock)))
  }

  /** One request. Either nothing is posted and nothing changes (the handler
      caught an exception while reading the arguments of `startStress` or
      `fileExists`), or the request is answered by broadcasts followed by one
      reply that echoes its id and command name. An unknown command is
      answered with an error; only the stress-control commands change state. */
  function Handle(s: State, req: Request, env: Environment): (r: Step)
    ensures r.out == [] || Answers(req, r.out)
    ensures r.out == [] <==>
      (|| (Route(req.cmd) == Some(StartStress) && StressThreadsArg(req.args).None?)
       || (Route(req.cmd) == Some(FileExistsQuery) && PathArg(req.args).None?))
    ensures r.out == [] ==> r.state == s
    ensures Route(req.cmd).None? ==> r.state == s && r.out == Respond(req, Failure(UnknownCommand))
    ensures r.state != s ==> Route(req.cmd).Some? && IsControl(Route(req.cmd).value)
  {
    match Route(req.cmd)
    case None => Step(s, Respond(req, Failure(UnknownCommand)))
    case Some(c) => Dispatch(c, s, req, env)
  }

  // ---------------------------------------------------------------- per-command properties

  /** `startStress`: dropped exactly when the worker count cannot be read.
      On an idle engine the engine then runs that many workers, unpaused; on
      a running one the start is refused and nothing changes. */
  lemma StartUsesResolvedThreadCount(s: State, req: Request, env: Environment)
    requires Route(req.cmd) == Some(StartStress)
    ensures var r := Handle(s, req, env);
      && (r.out == [] <==> StressThreadsArg(req.args).None?)
      && (r.out != [] && !s.engine.running ==>
            && r.out == Respond(req, Ack(true, "Stress test started"))
            && r.state.engine.running && !r.state.engine.paused
            && r.state.engine.threads == StressEngine.WorkersFor(StressThreadsArg(req.args).value)
            && r.state.isPaused == s.isPaused)
      && (r.out != [] && s.engine.running ==>
            r == Step(s, Respond(req, Ack(false, "Failed to start"))))
  {
  }

  /** `stopStress` clears the window's paused flag whether or not the engine stopped. */
  lemma StopClearsPauseFlag(s: State, req: Request, env: Environment)
    requires Route(req.cmd) == Some(StopStress)
    ensures var r := Handle(s, req, env); var t := StressEngine.Stop(s.engine);
      && !r.state.isPaused
      && r.state.engine == t.next
      && r.out == Respond(req, Ack(t.ok, if t.ok then "Stress test stopped" else "Failed to stop"))
  {
  }

  /** `togglePauseResume`/`pauseStress` aims for the opposite of the window's
      flag, reports that target even when the engine refused, and moves the
      flag only when the engine succeeded, which is when it is running. */
  lemma ToggleReportsTarget(s: State, req: Request, env: Environment)
    requires Route(req.cmd) == Some(TogglePause)
    ensures var r := Handle(s, req, env);
      && r.out[0].reply.result.PauseToggle?
      && r.out[0].reply.result.isPaused == !s.isPaused
      && r.out[0].reply.result.success == s.engine.running
      && r.state.isPaused == (if s.engine.running then !s.isPaused else s.isPaused)
      && r.state.engine.paused == (if s.engine.running then !s.isPaused else s.engine.paused)
  {
  }

  /** `resumeStress` clears the window's flag only when the engine resumed. */
  lemma ResumeClearsOnlyOnSuccess(s: State, req: Request, env: Environment)
    requires Route(req.cmd) == Some(ResumeStress)
    ensures var r := Handle(s, req, env);
      && r.out[0].reply.result == Ack(s.engine.running, if s.engine.running then "Resumed" else "Failed to resume")
      && r.state.isPaused == (s.isPaused && !s.engine.running)
  {
  }

  /** `getStressStatus` reports the engine's worker count and the window's flag, changing nothing. */
  lemma StatusIsAQuery(s: State, req: Request, env: Environment)
    requires Route(req.cmd) == Some(StressStatusQuery)
    ensures Handle(s, req, env) ==
      Step(s, Respond(req, StressStatus(s.engine.threads > 0, s.isPaused, s.engine.threads)))
  {
  }

  /** `runMultiCoreBenchmark`: one progress broadcast per run, numbered 1 to
      the clamped run count, then the reply, whose success is exactly a
      positive score. */
  lemma BenchmarkStreamsProgressThenReplies(s: State, req: Request, env: Environment)
    requires Route(req.cmd) == Some(MultiCoreBenchmark)
    ensures var n := Benchmark.ClampRuns(BenchmarkRunsArg(req.args));
      var score := Benchmark.Median(Benchmark.RunScores(n, env.runScore));
      var r := Handle(s, req, env);
      && r.state == s
      && |r.out| == n + 1
      && (forall i :: 0 <= i < n ==>
            r.out[i] == BroadcastMessage(Broadcast(ProgressEventName, BenchmarkProgress(i + 1, n))))
      && r.out[n] == ReplyMessage(Reply(req.id, req.cmd, BenchmarkScore(score, score > 0.0)))
  {
    assert Handle(s, req, env) == Step(s, BenchmarkMessages(req, env));
    var n := Benchmark.ClampRuns(BenchmarkRunsArg(req.args));
    var progress := ProgressBroadcasts(Benchmark.ProgressEvents(true, n));
    var out := BenchmarkMessages(req, env);
    ProgressIsNumbered(n);
    forall i | 0 <= i < n
      ensures out[i] == BroadcastMessage(Broadcast(ProgressEventName, BenchmarkProgress(i + 1, n)))
    {
      assert out[i] == out[..n][i] == progress[i];
    }
  }

  /** The progress broadcasts of an `n`-run benchmark number the runs 1 to `n`. */
  lemma ProgressIsNumbered(n: nat)
    ensures var progress := ProgressBroadcasts(Benchmark.ProgressEvents(true, n));
      forall i :: 0 <= i < n ==>
        progress[i] == BroadcastMessage(Broadcast(ProgressEventName, BenchmarkProgress(i + 1, n)))
  {
    Benchmark.OrderedProgressIsOneToN(Benchmark.ProgressEvents(true, n), n);
  }

  /** `fileExists` answers whether the file at `path` exists, a null path
      asking about the empty path; without a readable `path` nothing is posted. */
  lemma FileExistsAnswersPath(s: State, req: Request, env: Environment)
    requires Route(req.cmd) == Some(FileExistsQuery)
    ensures var r := Handle(s, req, env);
      && r.state == s
      && (r.out == [] <==> PathArg(req.args).None?)
      && (r.out != [] ==> r.out == Respond(req, FileCheck(env.fileExists(PathArg(req.args).value))))
      && (req.args.Fields? && "path" in req.args.fields && req.args.fields["path"] == NullArg ==>
            r.out == Respond(req, FileCheck(env.fileExists(""))))
  {
  }

  /** `getAppDir` and `getHardwareSensors` read no arguments, so they are
      always answered, and change nothing. */
  lemma DirectoryAndSensorQueriesReply(s: State, req: Request, env: Environment)
    ensures Route(req.cmd) == Some(AppDirQuery) ==>
      Handle(s, req, env) == Step(s, Respond(req, AppDirectory(env.appDir)))
    ensures Route(req.cmd) == Some(HardwareSensorsQuery) ==>
      Handle(s, req, env) == Step(s, Respond(req, SensorList(Sensors.Listing(env.devices))))
  {
  }

  /** `getHardwareMetrics` reports the engine's load and clock and the selected sensor readings. */
  lemma MetricsCarrySelectedReadings(s: State, req: Request, env: Environment)
    requires Route(req.cmd) == Some(HardwareMetricsQuery)
    ensures var r := Handle(s, req, env); var p := r.out[0].reply.result;
      && r.state == s
      && p.HardwareMetrics?
      && p.cpuLoad == env.native.cpuLoad && p.cpuFreqMHz == env.native.cpuFreqMHz
      && p.tempC == Sensors.PreferredReading(Sensors.Candidates(Sensors.Reached(env.devices), Sensors.Temperature))
      && p.packagePowerW == Sensors.PreferredReading(Sensors.Candidates(Sensors.Reached(env.devices), Sensors.Power))
      && p.voltage == Sensors.FirstReading(Sensors.VoltageCandidates(Sensors.Reached(env.devices)))
  {
  }

  /** `getCpuInfo` always succeeds and changes nothing. Name and model are
      both the native model name with white space trimmed from both ends;
      cores, threads (also as logical processors) and the clock are what
      the native call reports. */
  lemma CpuInfoReply(s: State, req: Request, env: Environment)
    requires Route(req.cmd) == Some(CpuInfoQuery)
    ensures var r := Handle(s, req, env); var p := r.out[0].reply.result;
      var info := CpuInfo.GetCPUInfo(true, env.cpu).value;
      && r.state == s
      && r.out == Respond(req, p)
      && p.CpuIdentity? && p.success
      && p.name == Trim(CpuInfo.ModelName(env.cpu.brand), IsWhiteSpace) && p.model == p.name
      && p.cores == info.cores as int
      && p.threads == info.threads as int && p.logicalProcessors == p.threads
      && p.maxClockMHz == info.maxMHz as int && p.maxClockMHz != 0
  {
  }

  // ---------------------------------------------------------------- sessions

  /** A request together with what the machine reports while it is handled. */
  datatype Exchange = Exchange(request: Request, env: Environment)

  /** A serial sequence of requests: the final state and every message posted, in order. */
  function Session(s: State, script: seq<Exchange>): Step
    decreases |script|
  {
    if script == [] then Step(s, [])
    else
      var first := Handle(s, script[0].request, script[0].env);
      var rest := Session(first.state, script[1..]);
      Step(rest.state, first.out + rest.out)
  }

  /** The window's paused flag tracks the engine: it is set exactly when the
      engine runs paused, and a stopped engine holds no workers. */
  predicate Coherent(s: State)
  {
    StressEngine.Valid(s.engine) && s.isPaused == (s.engine.running && s.engine.paused)
  }

  lemma HandleKeepsCoherent(s: State, req: Request, env: Environment)
    requires Coherent(s)
    ensures Coherent(Handle(s, req, env).state)
  {
  }

  lemma {:induction false} SessionKeepsCoherent(s: State, script: seq<Exchange>)
    requires Coherent(s)
    ensures Coherent(Session(s, script).state)
    decreases |script|
  {
    if script != [] {
      HandleKeepsCoherent(s, script[0].request, script[0].env);
      SessionKeepsCoherent(Handle(s, script[0].request, script[0].env).state, script[1..]);
    }
  }

  /** After any serial sequence of requests from launch, the window's paused
      flag equals the engine's paused-and-running, although the engine's
      stop leaves its own paused flag set; and a status query then reports
      the engine's own pause state. */
  lemma PauseFlagMatchesEngine(script: seq<Exchange>, req: Request, env: Environment)
    requires Route(req.cmd) == Some(StressStatusQuery)
    ensures var s := Session(Launched, script).state;
      && s.isPaused == (s.engine.running && s.engine.paused)
      && Handle(s, req, env).out[0].reply.result.paused == (s.engine.running && s.engine.paused)
      && (Handle(s, req, env).out[0].reply.result.running ==> s.engine.running)
  {
    SessionKeepsCoherent(Launched, script);
  }

  /** After any serial sequence of requests from launch, a non-zero worker
      count means a stress test is in effect, and a stopped test has none. */
  lemma WorkersOnlyWhileRunning(script: seq<Exchange>)
    ensures var e := Session(Launched, script).state.engine;
      && (StressEngine.ActiveThreadCount(e) > 0 ==> e.running)
      && (!e.running ==> StressEngine.ActiveThreadCount(e) == 0)
  {
    SessionKeepsCoherent(Launched, script);
  }

  // ---------------------------------------------------------------- scenarios

  /** Start with four workers, toggle, toggle: paused, then running again,
      and the status after each step shows the intended flag. */
  lemma PauseResumeRoundTrip(env: Environment)
    ensures
      var start := Handle(Launched, Request("1", "startStress", Fields(map["numProcesses" := IntArg(4)])), env);
      var pause := Handle(start.state, Request("2", "togglePauseResume", NotAnObject), env);
      var resume := Handle(pause.state, Request("3", "togglePauseResume", NotAnObject), env);
      && start.out == [ReplyMessage(Reply("1", "startStress", Ack(true, "Stress test started")))]
      && pause.out == [ReplyMessage(Reply("2", "togglePauseResume", PauseToggle(true, "Paused", true)))]
      && resume.out == [ReplyMessage(Reply("3", "togglePauseResume", PauseToggle(true, "Resumed", false)))]
      && Handle(pause.state, Request("4", "getStressStatus", NotAnObject), env).out
         == [ReplyMessage(Reply("4", "getStressStatus", StressStatus(true, true, 4)))]
      && Handle(resume.state, Request("5", "getStressStatus", NotAnObject), env).out
         == [ReplyMessage(Reply("5", "getStressStatus", StressStatus(true, false, 4)))]
  {
  }

  /** A start with zero workers succeeds, yet the status then reports the
      stress test as not running while a second start is refused: the
      status derives `running` from the worker count alone. */
  lemma ZeroWorkerStartLooksStopped(env: Environment)
    ensures
      var start := Handle(Launched, Request("1", "startStress", Fields(map["numProcesses" := IntArg(0)])), env);
      var again := Handle(start.state, Request("3", "startStress", Fields(map[])), env);
      && start.out == [ReplyMessage(Reply("1", "startStress", Ack(true, "Stress test started")))]
      && Handle(start.state, Request("2", "getStressStatus", NotAnObject), env).out
         == [ReplyMessage(Reply("2", "getStressStatus", StressStatus(false, false, 0)))]
      && again.out == [ReplyMessage(Reply("3", "startStress", Ack(false, "Failed to start")))]
  {
  }

  /** An unknown command gets an error reply with the request's id and name. */
  lemma UnknownCommandExample(env: Environment)
    ensures Handle(Launched, Request("7", "reboot", NotAnObject), env).out
      == [ReplyMessage(Reply("7", "reboot", Failure("Unknown command")))]
  {
  }
}

=== FILE: common.dfy ===
/** Vocabulary shared by the native library and the bridge: optional values,
    the fixed-width integers of the C and JSON boundaries, and the ordinal
    string operations the bridge relies on. */
module Common {

  /** A value that may be absent (a C# `double?`, or a call that returned nothing). */
  datatype Option<+T> = None | Some(value: T)

  /** A signed 32-bit integer: C `int`, and what `JsonElement.GetInt32` accepts. */
  newtype Int32 = x: int | -0x8000_0000 <= x < 0x8000_0000

  /** An unsigned 32-bit integer: a Windows `DWORD`. */
  newtype Uint32 = x: int | 0 <= x < 0x1_0000_0000

  /** The C conversion of a `DWORD` into an `int`: the same bits, read as two's complement. */
  function ToInt32(x: Uint32): (r: Int32)
    ensures (r as int - x as int) % 0x1_0000_0000 == 0
    ensures x < 0x8000_0000 ==> r as int == x as int
    ensures x != 0 ==> r != 0
  {
    if x < 0x8000_0000 then x as int as Int32 else (x as int - 0x1_0000_0000) as Int32
  }

  /** `sub` occurs in `s` at index `i`. */
  predicate OccursAt(s: string, sub: string, i: int)
  {
    0 <= i && i + |sub| <= |s| && s[i..i + |sub|] == sub
  }

  /** Ordinal, case-sensitive substring test, as .NET's `String.Contains(string)`. */
  predicate Contains(s: string, sub: string)
    decreases |s|
  {
    if |s| < |sub| then false
    else s[..|sub|] == sub || Contains(s[1..], sub)
  }

  /** The scanning definition of `Contains` finds exactly the occurrences. */
  lemma {:induction false} ContainsIffOccurs(s: string, sub: string)
    ensures Contains(s, sub) <==> exists i :: OccursAt(s, sub, i)
    decreases |s|
  {
    if |s| < |sub| {
    } else if s[..|sub|] == sub {
      assert OccursAt(s, sub, 0);
    } else {
      ContainsIffOccurs(s[1..], sub);
      if Contains(s[1..], sub) {
        var i :| OccursAt(s[1..], sub, i);
        assert s[i + 1..i + 1 + |sub|] == s[1..][i..i + |sub|];
        assert OccursAt(s, sub, i + 1);
      }
      if exists i :: OccursAt(s, sub, i) {
        var i :| OccursAt(s, sub, i);
        assert i != 0;
        assert s[1..][i - 1..i - 1 + |sub|] == s[i..i + |sub|];
        assert OccursAt(s[1..], sub, i - 1);
      }
    }
  }

  /** `s` without its leading characters that satisfy `blank`. */
  function TrimStart(s: string, blank: char -> bool): (r: string)
    ensures |r| <= |s| && r == s[|s| - |r|..]
    ensures forall i :: 0 <= i < |s| - |r| ==> blank(s[i])
    ensures |r| > 0 ==> !blank(r[0])
    decreases |s|
  {
    if |s| > 0 && blank(s[0]) then TrimStart(s[1..], blank) else s
  }

  /** `s` without its trailing characters that satisfy `blank`. */
  function TrimEnd(s: string, blank: char -> bool): (r: string)
    ensures |r| <= |s| && r == s[..|r|]
    ensures forall i :: |r| <= i < |s| ==> blank(s[i])
    ensures |r| > 0 ==> !blank(r[|r| - 1])
    decreases |s|
  {
    if |s| > 0 && blank(s[|s| - 1]) then TrimEnd(s[..|s| - 1], blank) else s
  }

  /** How many leading characters of `s` satisfy `blank`. */
  function LeadingBlanks(s: string, blank: char -> bool): (n: nat)
    ensures n <= |s|
  {
    |s| - |TrimStart(s, blank)|
  }

  /** `s` without its leading and trailing characters that satisfy `blank`. */
  function Trim(s: string, blank: char -> bool): (r: string)
    ensures LeadingBlanks(s, blank) + |r| <= |s|
    ensures r == s[LeadingBlanks(s, blank)..LeadingBlanks(s, blank) + |r|]
    ensures forall i :: 0 <= i < LeadingBlanks(s, blank) ==> blank(s[i])
    ensures forall i :: LeadingBlanks(s, blank) + |r| <= i < |s| ==> blank(s[i])
    ensures r != [] ==> !blank(r[0]) && !blank(r[|r| - 1])
  {
    var front := TrimStart(s, blank);
    var r := TrimEnd(front, blank);
    var lead := LeadingBlanks(s, blank);
    assert front == s[lead..];
    assert r == front[..|r|];
    forall i | lead + |r| <= i < |s| ensures blank(s[i]) {
      assert s[i] == front[i - lead];
    }
    r
  }
}

=== FILE: cpu_info.dfy ===
/** `GetCPUInfo` of the native library: the processor's brand string, its
    logical processor count, an estimate of its physical cores and its
    maximum clock. What the operating system and the CPUID instruction
    report is an input. */
module CpuInfo {
  import opened Common

  /** What the machine reports. */
  datatype CpuFacts = CpuFacts(
    /** The CPUID brand string, when extended leaf 0x80000004 exists. */
    brand: Option<string>,
    /** `SYSTEM_INFO.dwNumberOfProcessors`. */
    logicalProcessors: Uint32,
    /** The number written after "@" in the brand string, read as GHz and
        given in MHz truncated to an integer, when a number follows the "@"
        (whatever unit comes after it); ignored when there is no brand string. */
    brandMHz: Option<Int32>,
    /** The registry's "~MHz" value, when it could be read. */
    registryMHz: Option<Uint32>)

  /** The four values `GetCPUInfo` writes through its pointer arguments. */
  datatype CpuInfo = CpuInfo(modelName: string, cores: Int32, threads: Int32, maxMHz: Int32)

  /** Clock reported when neither the brand string nor the registry gives one. */
  const DefaultMHz: Int32 := 2400

  /** The brand string without its leading spaces. */
  function ModelName(brand: Option<string>): (name: string)
    ensures brand.None? ==> name == ""
    ensures brand.Some? ==> |name| <= |brand.value| && name == brand.value[|brand.value| - |name|..]
    ensures brand.Some? ==> forall i :: 0 <= i < |brand.value| - |name| ==> brand.value[i] == ' '
    ensures |name| > 0 ==> name[0] != ' '
  {
    match brand
    case None => ""
    case Some(b) => TrimStart(b, c => c == ' ')
  }

  /** C `/` on `int`: the quotient truncated toward zero. */
  function TruncatingDivide(a: int, b: int): (q: int)
    requires b > 0
    ensures a >= 0 ==> q == a / b
    ensures a < 0 ==> q == -((-a) / b)
  {
    if a >= 0 then a / b else -((-a) / b)
  }

  /** Physical cores, estimated as half the logical processors, or all of them when that half is 0. */
  function EstimateCores(threads: Int32): (cores: Int32)
    ensures threads >= 2 ==> 1 <= cores && 2 * (cores as int) <= threads as int <= 2 * (cores as int) + 1
    ensures 0 <= threads <= 1 ==> cores == threads
    ensures cores != 0 || threads == 0
  {
    var half := TruncatingDivide(threads as int, 2) as Int32;
    if half == 0 then threads else half
  }

  /** The brand string gave no usable clock figure. */
  predicate NoBrandClock(brandMHz: Option<Int32>)
  {
    brandMHz.None? || brandMHz.value == 0
  }

  /** The maximum clock: the brand string's figure; failing that (absent or
      0), the registry's positive value; failing that, 2400. */
  function MaxMHz(brandMHz: Option<Int32>, registryMHz: Option<Uint32>): (mhz: Int32)
    ensures mhz != 0
    ensures brandMHz.Some? && brandMHz.value != 0 ==> mhz == brandMHz.value
    ensures NoBrandClock(brandMHz) && registryMHz.Some? && registryMHz.value > 0 ==>
      mhz as int % 0x1_0000_0000 == registryMHz.value as int
    ensures NoBrandClock(brandMHz) && (registryMHz.None? || registryMHz.value == 0) ==> mhz == DefaultMHz
  {
    var fromBrand: Int32 := if brandMHz.Some? then brandMHz.value else 0;
    if fromBrand != 0 then fromBrand
    else if registryMHz.Some? && registryMHz.value > 0 then ToInt32(registryMHz.value)
    else DefaultMHz
  }

  /** `GetCPUInfo`: fails, writing nothing, when any output pointer is null. */
  function GetCPUInfo(pointersValid: bool, facts: CpuFacts): (r: Option<CpuInfo>)
    ensures r.None? <==> !pointersValid
    ensures r.Some? ==> r.value.maxMHz != 0
    ensures r.Some? && facts.logicalProcessors < 0x8000_0000 ==> r.value.threads as int == facts.logicalProcessors as int
    ensures r.Some? && 1 <= facts.logicalProcessors < 0x8000_0000 ==> 1 <= r.value.cores <= r.value.threads
    ensures r.Some? ==> r.value.threads as int % 0x1_0000_0000 == facts.logicalProcessors as int
    ensures r.Some? ==> r.value.modelName == ModelName(facts.brand)
    ensures r.Some? ==> r.value.cores == EstimateCores(r.value.threads)
    ensures r.Some? && facts.brand.Some? && !NoBrandClock(facts.brandMHz) ==> r.value.maxMHz == facts.brandMHz.value
    ensures r.Some? && (facts.brand.None? || NoBrandClock(facts.brandMHz))
                    && facts.registryMHz.Some? && facts.registryMHz.value > 0
      ==> r.value.maxMHz as int % 0x1_0000_0000 == facts.registryMHz.value as int
    ensures r.Some? && (facts.brand.None? || NoBrandClock(facts.brandMHz))
                    && (facts.registryMHz.None? || facts.registryMHz.value == 0)
      ==> r.value.maxMHz == DefaultMHz
  {
    if !pointersValid then None
    else
      var threads := ToInt32(facts.logicalProcessors);
      // Without a brand string the name buffer stays empty, so it holds no "@" clock.
      var brandMHz := if facts.brand.Some? then facts.brandMHz else None;
      Some(CpuInfo(ModelName(facts.brand), EstimateCores(threads), threads, MaxMHz(brandMHz, facts.registryMHz)))
  }
}

=== FILE: envelope.dfy ===
/** The messages the bridge sends over the web-view channel: a reply
    `{id, replyTo, result}` correlated with a request, and a broadcast
    `{broadcast, result}` that answers none. Each command's result shape is
    one variant of `Payload`. JSON encoding is not part of this model. */
module Envelope {
  import opened Common
  import Sensors

  /** Memory figures of a metrics snapshot, taken as given. */
  datatype RamUsage = RamUsage(usedGB: real, totalGB: real, usagePercent: real)

  datatype Payload =
    /** start, stop and resume */
    | Ack(success: bool, message: string)
    /** toggle pause/resume: `isPaused` is the state the toggle aimed for */
    | PauseToggle(success: bool, message: string, isPaused: bool)
    | StressStatus(running: bool, paused: bool, threadCount: int)
    | CpuIdentity(success: bool, name: string, model: string, cores: int, threads: int,
                  logicalProcessors: int, maxClockMHz: int)
    | AppDirectory(path: string)
    | FileCheck(found: bool)
    | SensorList(entries: seq<Sensors.SensorEntry>)
    | BenchmarkScore(score: real, success: bool)
    | BenchmarkProgress(currentRun: int, totalRuns: int)
    | HardwareMetrics(cpuLoad: real, cpuFreqMHz: int, tempC: Option<real>, voltage: Option<real>,
                      packagePowerW: Option<real>, ram: RamUsage, timestamp: string)
    | Failure(error: string)

  datatype Reply = Reply(id: string, replyTo: string, result: Payload)

  datatype Broadcast = Broadcast(broadcast: string, result: Payload)

  datatype Message = ReplyMessage(reply: Reply) | BroadcastMessage(event: Broadcast)

  const UnknownCommand := "Unknown command"

  /** Event name of benchmark progress broadcasts. */
  const ProgressEventName := "benchmarkProgress"
}

=== FILE: sensors.dfy ===
/** Selection of the CPU temperature, core voltage and package power from the
    hardware-monitor devices, as the metrics handler performs it: one pass
    over the devices in enumeration order, refreshing each and scanning its
    sensors. What the monitor library enumerates is an input. The pass is
    given first as the handler's own fold, then by reference definitions that
    say which reading wins, and the two are proved equal. */
module Sensors {
  import opened Common

  datatype HardwareKind = Cpu | Motherboard | OtherHardware
  datatype SensorKind = Temperature | Voltage | Power | OtherSensor

  /** A sensor as the monitor reports it; `value` is absent when it has no reading. */
  datatype Sensor = Sensor(name: string, kind: SensorKind, value: Option<real>)

  /** An enumerated device. `refreshFails` stands for a refresh that throws,
      which ends the pass (the handler catches the exception outside the loop). */
  datatype Device = Device(name: string, kind: HardwareKind, sensors: seq<Sensor>, refreshFails: bool)

  /** The three optional readings of a metrics snapshot. */
  datatype Readings = Readings(tempC: Option<real>, voltage: Option<real>, power: Option<real>)

  const Unset := Readings(None, None, None)

  predicate IsPackage(name: string)
  {
    Contains(name, "Package")
  }

  /** Names a temperature or power sensor must mention to be considered. */
  predicate NamesCpuOrPackage(name: string)
  {
    Contains(name, "Package") || Contains(name, "CPU")
  }

  /** Names a motherboard voltage sensor must mention to be taken as the core voltage. */
  predicate NamesCoreVoltage(name: string)
  {
    Contains(name, "CPU") || Contains(name, "VCore") || Contains(name, "Vcore")
  }

  // ---------------------------------------------------------------- the handler's pass

  /** A qualifying sensor replaces the current reading when there is none yet
      or when it is a "Package" sensor. An absent value clears the reading. */
  function PreferStep(current: Option<real>, s: Sensor): Option<real>
  {
    if current.None? || IsPackage(s.name) then s.value else current
  }

  function Prefer(current: Option<real>, s: Sensor): Option<real>
  {
    if NamesCpuOrPackage(s.name) then PreferStep(current, s) else current
  }

  /** One sensor of a CPU device. */
  function CpuSensorStep(r: Readings, s: Sensor): Readings
  {
    if s.kind == Temperature then r.(tempC := Prefer(r.tempC, s))
    else if s.kind == Voltage && r.voltage.None? then r.(voltage := s.value)
    else if s.kind == Power then r.(power := Prefer(r.power, s))
    else r
  }

  function ScanCpu(r: Readings, sensors: seq<Sensor>): Readings
    decreases |sensors|
  {
    if sensors == [] then r else ScanCpu(CpuSensorStep(r, sensors[0]), sensors[1..])
  }

  /** The value of the first voltage sensor naming the core, ending the scan
      there even when that sensor has no reading. */
  function MotherboardVoltage(sensors: seq<Sensor>): Option<real>
  {
    if sensors == [] then None
    else if sensors[0].kind == Voltage && NamesCoreVoltage(sensors[0].name) then sensors[0].value
    else MotherboardVoltage(sensors[1..])
  }

  /** One device: CPU devices feed all three readings; a motherboard is
      scanned for a voltage only while none is set. */
  function DeviceStep(r: Readings, d: Device): Readings
  {
    if d.kind == Cpu then ScanCpu(r, d.sensors)
    else if d.kind == Motherboard && r.voltage.None? then r.(voltage := MotherboardVoltage(d.sensors))
    else r
  }

  function Sweep(r: Readings, devices: seq<Device>): Readings
    decreases |devices|
  {
    if devices == [] || devices[0].refreshFails then r
    else Sweep(DeviceStep(r, devices[0]), devices[1..])
  }

  // ---------------------------------------------------------------- reference definitions

  /** The devices the pass reaches: those before the first failing refresh. */
  function Reached(devices: seq<Device>): (rs: seq<Device>)
    ensures |rs| <= |devices| && rs == devices[..|rs|]
    ensures forall i :: 0 <= i < |rs| ==> !rs[i].refreshFails
    ensures |rs| < |devices| ==> devices[|rs|].refreshFails
  {
    if devices == [] || devices[0].refreshFails then []
    else [devices[0]] + Reached(devices[1..])
  }

  /** Sensors of `kind` whose names mention "Package" or "CPU", in order. */
  function Qualifying(sensors: seq<Sensor>, kind: SensorKind): (q: seq<Sensor>)
    ensures forall i :: 0 <= i < |q| ==> q[i] in sensors && q[i].kind == kind && NamesCpuOrPackage(q[i].name)
  {
    if sensors == [] then []
    else if sensors[0].kind == kind && NamesCpuOrPackage(sensors[0].name) then [sensors[0]] + Qualifying(sensors[1..], kind)
    else Qualifying(sensors[1..], kind)
  }

  /** The qualifying sensors of `kind` on CPU devices, in enumeration order. */
  function Candidates(devices: seq<Device>, kind: SensorKind): seq<Sensor>
  {
    if devices == [] then []
    else (if devices[0].kind == Cpu then Qualifying(devices[0].sensors, kind) else []) + Candidates(devices[1..], kind)
  }

  /** The voltage sensors of a device, in order. */
  function VoltageSensors(sensors: seq<Sensor>): seq<Sensor>
  {
    if sensors == [] then []
    else (if sensors[0].kind == Voltage then [sensors[0]] else []) + VoltageSensors(sensors[1..])
  }

  /** A voltage sensor whose name marks it as the CPU core voltage. */
  predicate IsCoreVoltage(s: Sensor)
  {
    s.kind == Voltage && NamesCoreVoltage(s.name)
  }

  /** The first voltage sensor of a motherboard that names the core, if any. */
  function CoreVoltageSensor(sensors: seq<Sensor>): (c: seq<Sensor>)
    ensures |c| <= 1
    ensures |c| == 1 <==> exists i :: 0 <= i < |sensors| && IsCoreVoltage(sensors[i])
    ensures |c| == 1 ==> exists i :: 0 <= i < |sensors| && c[0] == sensors[i] && IsCoreVoltage(sensors[i])
                                   && forall j :: 0 <= j < i ==> !IsCoreVoltage(sensors[j])
    decreases |sensors|
  {
    if sensors == [] then []
    else if IsCoreVoltage(sensors[0]) then [sensors[0]]
    else
      var c := CoreVoltageSensor(sensors[1..]);
      assert forall i :: 0 < i < |sensors| ==> sensors[i] == sensors[1..][i - 1];
      assert |c| == 1 ==> exists i :: 0 <= i < |sensors| && c[0] == sensors[i] && IsCoreVoltage(sensors[i])
                                     && forall j :: 0 <= j < i ==> !IsCoreVoltage(sensors[j]) by {
        if |c| == 1 {
          var i :| 0 <= i < |sensors[1..]| && c[0] == sensors[1..][i] && IsCoreVoltage(sensors[1..][i])
                   && forall j :: 0 <= j < i ==> !IsCoreVoltage(sensors[1..][j]);
          assert forall j :: 0 <= j < i + 1 ==> !IsCoreVoltage(sensors[j]) by {
            forall j | 0 <= j < i + 1 ensures !IsCoreVoltage(sensors[j]) {
              if j > 0 {
                assert sensors[j] == sensors[1..][j - 1];
              }
            }
          }
        }
      }
      assert (exists i :: 0 <= i < |sensors| && IsCoreVoltage(sensors[i])) ==>
             (exists i :: 0 <= i < |sensors[1..]| && IsCoreVoltage(sensors[1..][i])) by {
        if exists i :: 0 <= i < |sensors| && IsCoreVoltage(sensors[i]) {
          var i :| 0 <= i < |sensors| && IsCoreVoltage(sensors[i]);
          assert i > 0 && IsCoreVoltage(sensors[1..][i - 1]);
        }
      }
      c
  }

  /** The sensors that may supply the voltage, in enumeration order: every
      voltage sensor of a CPU device, and the first core-voltage sensor of a
      motherboard. */
  function VoltageCandidates(devices: seq<Device>): seq<Sensor>
  {
    if devices == [] then []
    else
      var d := devices[0];
      (if d.kind == Cpu then VoltageSensors(d.sensors)
       else if d.kind == Motherboard then CoreVoltageSensor(d.sensors)
       else []) + VoltageCandidates(devices[1..])
  }

  /** The first reading present among `cs`. */
  function FirstReading(cs: seq<Sensor>): (v: Option<real>)
    ensures v.Some? <==> exists i :: 0 <= i < |cs| && cs[i].value.Some?
    ensures v.Some? ==> exists i :: 0 <= i < |cs| && cs[i].value == v && forall j :: 0 <= j < i ==> cs[j].value.None?
  {
    if cs == [] then None
    else if cs[0].value.Some? then cs[0].value
    else
      assert forall i :: 0 < i < |cs| ==> cs[i] == cs[1..][i - 1];
      FirstReading(cs[1..])
  }

  predicate HasPackage(cs: seq<Sensor>)
  {
    exists k :: 0 <= k < |cs| && IsPackage(cs[k].name)
  }

  /** Where the preference rule starts reading: at the last "Package"
      candidate, or at the first candidate when there is none. */
  function PreferenceStart(cs: seq<Sensor>): (j: nat)
    ensures j <= |cs| && (cs != [] ==> j < |cs|)
    ensures HasPackage(cs) ==> IsPackage(cs[j].name) && forall k :: j < k < |cs| ==> !IsPackage(cs[k].name)
    ensures !HasPackage(cs) ==> j == 0
  {
    if cs == [] then 0
    else if HasPackage(cs[1..]) then
      var j := 1 + PreferenceStart(cs[1..]);
      assert forall k :: j < k < |cs| ==> cs[k] == cs[1..][k - 1];
      j
    else
      assert forall k :: 0 < k < |cs| ==> cs[k] == cs[1..][k - 1];
      0
  }

  /** The reading the preference rule selects among candidates: the first
      present reading from the last "Package" candidate on (the later
      candidates cannot be "Package" ones, so they only fill in a missing
      value), or from the first candidate when no "Package" one exists. */
  function PreferredReading(cs: seq<Sensor>): Option<real>
  {
    FirstReading(cs[PreferenceStart(cs)..])
  }

  // ---------------------------------------------------------------- the pass meets the reference

  function PreferFold(current: Option<real>, cs: seq<Sensor>): Option<real>
    decreases |cs|
  {
    if cs == [] then current else PreferFold(PreferStep(current, cs[0]), cs[1..])
  }

  function Pick(r: Readings, kind: SensorKind): Option<real>
    requires kind == Temperature || kind == Power
  {
    if kind == Temperature then r.tempC else r.power
  }

  lemma {:induction false} PreferFoldAppend(current: Option<real>, a: seq<Sensor>, b: seq<Sensor>)
    ensures PreferFold(current, a + b) == PreferFold(PreferFold(current, a), b)
    decreases |a|
  {
    if a != [] {
      assert (a + b)[0] == a[0] && (a + b)[1..] == a[1..] + b;
      PreferFoldAppend(PreferStep(current, a[0]), a[1..], b);
    } else {
      assert a + b == b;
    }
  }

  /** Folding the preference rule over candidates yields the reference choice;
      a reading held before the candidates survives only if no "Package"
      candidate comes and it is present. */
  lemma {:induction false} PreferFoldIsPreferred(current: Option<real>, cs: seq<Sensor>)
    ensures PreferFold(current, cs) ==
      if HasPackage(cs) then PreferredReading(cs)
      else if current.Some? then current
      else FirstReading(cs)
    decreases |cs|
  {
    if cs != [] {
      var rest := cs[1..];
      PreferFoldIsPreferred(PreferStep(current, cs[0]), rest);
      if HasPackage(rest) {
        var k :| 0 <= k < |rest| && IsPackage(rest[k].name);
        assert IsPackage(cs[k + 1].name);
        assert PreferenceStart(cs) == 1 + PreferenceStart(rest);
        assert cs[PreferenceStart(cs)..] == rest[PreferenceStart(rest)..];
      } else {
        assert forall k :: 0 < k < |cs| ==> cs[k] == rest[k - 1];
        if IsPackage(cs[0].name) {
          assert HasPackage(cs);
          assert PreferenceStart(cs) == 0;
        } else {
          assert !HasPackage(cs);
        }
      }
    }
  }

  lemma {:induction false} ScanCpuPrefers(r: Readings, sensors: seq<Sensor>, kind: SensorKind)
    requires kind == Temperature || kind == Power
    ensures Pick(ScanCpu(r, sensors), kind) == PreferFold(Pick(r, kind), Qualifying(sensors, kind))
    decreases |sensors|
  {
    if sensors != [] {
      ScanCpuPrefers(CpuSensorStep(r, sensors[0]), sensors[1..], kind);
    }
  }

  lemma {:induction false} FirstReadingAppend(a: seq<Sensor>, b: seq<Sensor>)
    ensures FirstReading(a + b) == if FirstReading(a).Some? then FirstReading(a) else FirstReading(b)
    decreases |a|
  {
    if a != [] {
      assert (a + b)[0] == a[0] && (a + b)[1..] == a[1..] + b;
      FirstReadingAppend(a[1..], b);
    } else {
      assert a + b == b;
    }
  }

  lemma {:induction false} ScanCpuVoltage(r: Readings, sensors: seq<Sensor>)
    ensures ScanCpu(r, sensors).voltage ==
      if r.voltage.Some? then r.voltage else FirstReading(VoltageSensors(sensors))
    decreases |sensors|
  {
    if sensors != [] {
      ScanCpuVoltage(CpuSensorStep(r, sensors[0]), sensors[1..]);
      FirstReadingAppend(if sensors[0].kind == Voltage then [sensors[0]] else [], VoltageSensors(sensors[1..]));
    }
  }

  lemma {:induction false} MotherboardVoltageIsCandidate(sensors: seq<Sensor>)
    ensures MotherboardVoltage(sensors) == FirstReading(CoreVoltageSensor(sensors))
    decreases |sensors|
  {
    if sensors != [] {
      MotherboardVoltageIsCandidate(sensors[1..]);
    }
  }

  lemma {:induction false} SweepPrefers(r: Readings, devices: seq<Device>, kind: SensorKind)
    requires kind == Temperature || kind == Power
    ensures Pick(Sweep(r, devices), kind) == PreferFold(Pick(r, kind), Candidates(Reached(devices), kind))
    decreases |devices|
  {
    if devices != [] && !devices[0].refreshFails {
      var d := devices[0];
      var own := if d.kind == Cpu then Qualifying(d.sensors, kind) else [];
      assert Candidates(Reached(devices), kind) == own + Candidates(Reached(devices[1..]), kind) by {
        assert ([d] + Reached(devices[1..]))[1..] == Reached(devices[1..]);
      }
      SweepPrefers(DeviceStep(r, d), devices[1..], kind);
      PreferFoldAppend(Pick(r, kind), own, Candidates(Reached(devices[1..]), kind));
      if d.kind == Cpu {
        ScanCpuPrefers(r, d.sensors, kind);
      }
    }
  }

  lemma {:induction false} SweepVoltage(r: Readings, devices: seq<Device>)
    ensures Sweep(r, devices).voltage ==
      if r.voltage.Some? then r.voltage else FirstReading(VoltageCandidates(Reached(devices)))
    decreases |devices|
  {
    if devices != [] && !devices[0].refreshFails {
      var d := devices[0];
      var own := if d.kind == Cpu then VoltageSensors(d.sensors)
                 else if d.kind == Motherboard then CoreVoltageSensor(d.sensors)
                 else [];
      assert VoltageCandidates(Reached(devices)) == own + VoltageCandidates(Reached(devices[1..])) by {
        assert ([d] + Reached(devices[1..]))[1..] == Reached(devices[1..]);
      }
      SweepVoltage(DeviceStep(r, d), devices[1..]);
      FirstReadingAppend(own, VoltageCandidates(Reached(devices[1..])));
      if d.kind == Cpu {
        ScanCpuVoltage(r, d.sensors);
      } else if d.kind == Motherboard {
        MotherboardVoltageIsCandidate(d.sensors);
      }
    }
  }

  /** The readings of a metrics snapshot: temperature and power are the
      preferred readings among the qualifying sensors of CPU devices, the
      voltage is the first reading among the voltage candidates, all over
      the devices reached before a refresh fails. */
  function SelectReadings(devices: seq<Device>): (r: Readings)
    ensures r.tempC == PreferredReading(Candidates(Reached(devices), Temperature))
    ensures r.power == PreferredReading(Candidates(Reached(devices), Power))
    ensures r.voltage == FirstReading(VoltageCandidates(Reached(devices)))
  {
    SweepPrefers(Unset, devices, Temperature);
    PreferFoldIsPreferred(None, Candidates(Reached(devices), Temperature));
    SweepPrefers(Unset, devices, Power);
    PreferFoldIsPreferred(None, Candidates(Reached(devices), Power));
    SweepVoltage(Unset, devices);
    Sweep(Unset, devices)
  }

  // ---------------------------------------------------------------- consequences

  /** When every candidate has a reading: the last "Package" candidate wins,
      otherwise the first candidate, otherwise nothing. */
  lemma PreferredWhenAllPresent(cs: seq<Sensor>)
    requires forall i :: 0 <= i < |cs| ==> cs[i].value.Some?
    ensures cs == [] ==> PreferredReading(cs).None?
    ensures HasPackage(cs) ==> PreferredReading(cs) == cs[PreferenceStart(cs)].value
    ensures cs != [] && !HasPackage(cs) ==> PreferredReading(cs) == cs[0].value
  {
    if cs != [] {
      var j := PreferenceStart(cs);
      assert cs[j..][0] == cs[j];
    }
  }

  /** Once a voltage is set, the rest of the pass never replaces it. */
  lemma VoltageNeverOverwritten(r: Readings, devices: seq<Device>)
    requires r.voltage.Some?
    ensures Sweep(r, devices).voltage == r.voltage
  {
    SweepVoltage(r, devices);
  }

  lemma {:induction false} NoCpuNoCandidates(devices: seq<Device>, kind: SensorKind)
    requires forall i :: 0 <= i < |devices| ==> devices[i].kind != Cpu
    ensures Candidates(devices, kind) == []
    decreases |devices|
  {
    if devices != [] {
      NoCpuNoCandidates(devices[1..], kind);
    }
  }

  /** Temperature and power come only from CPU devices. */
  lemma NoCpuNoTemperatureOrPower(devices: seq<Device>)
    requires forall i :: 0 <= i < |devices| ==> devices[i].kind != Cpu
    ensures SelectReadings(devices).tempC.None? && SelectReadings(devices).power.None?
  {
    var reached := Reached(devices);
    assert forall i :: 0 <= i < |reached| ==> reached[i] == devices[i];
    NoCpuNoCandidates(reached, Temperature);
    NoCpuNoCandidates(reached, Power);
  }

  /** A failing refresh hides every later device. */
  lemma FailureEndsSweep(before: seq<Device>, failing: Device, after: seq<Device>)
    requires failing.refreshFails
    ensures Reached(before + [failing] + after) == Reached(before)
    decreases |before|
  {
    if before != [] && !before[0].refreshFails {
      assert (before + [failing] + after)[1..] == before[1..] + [failing] + after;
      FailureEndsSweep(before[1..], failing, after);
    }
  }

  /** A "Package" temperature overrides an earlier "CPU" one. */
  lemma PackageTemperatureExample()
    ensures SelectReadings([Device("CPU", Cpu, [Sensor("CPU Temp", Temperature, Some(50.0)),
                                                 Sensor("Package Temp", Temperature, Some(60.0))], false)]).tempC
      == Some(60.0)
  {
    var a := Sensor("CPU Temp", Temperature, Some(50.0));
    var b := Sensor("Package Temp", Temperature, Some(60.0));
    CpuTemperatureNames();
    var d := Device("CPU", Cpu, [a, b], false);
    var r1 := CpuSensorStep(Unset, a);
    assert r1.tempC == Some(50.0);
    assert [a, b][1..] == [b];
    assert ScanCpu(Unset, [a, b]) == ScanCpu(r1, [b]) == ScanCpu(CpuSensorStep(r1, b), []);
    assert Sweep(Unset, [d]) == Sweep(ScanCpu(Unset, [a, b]), []);
  }

  /** Alone, the "CPU" temperature is taken. */
  lemma CpuTemperatureExample()
    ensures SelectReadings([Device("CPU", Cpu, [Sensor("CPU Temp", Temperature, Some(50.0))], false)]).tempC
      == Some(50.0)
  {
    var a := Sensor("CPU Temp", Temperature, Some(50.0));
    CpuTemperatureNames();
    var d := Device("CPU", Cpu, [a], false);
    assert ScanCpu(Unset, [a]).tempC == Some(50.0);
    assert Sweep(Unset, [d]) == Sweep(ScanCpu(Unset, [a]), []);
  }

  lemma CpuTemperatureNames()
    ensures IsPackage("Package Temp") && NamesCpuOrPackage("Package Temp")
    ensures !IsPackage("CPU Temp") && NamesCpuOrPackage("CPU Temp")
  {
    assert "Package Temp"[..7] == "Package";
    assert "CPU Temp"[..3] == "CPU";
    assert "CPU Temp"[..7][0] != "Package"[0];
    assert "CPU Temp"[1..] == "PU Temp";
    assert "PU Temp"[1] != "Package"[1];
    assert "PU Temp"[1..] == "U Temp";
  }

  /** Without a CPU voltage sensor, the motherboard's "VCore" reading is the core voltage. */
  lemma VoltageFallbackExample()
    ensures SelectReadings([Device("CPU", Cpu, [Sensor("CPU Temp", Temperature, Some(50.0))], false),
                            Device("Board", Motherboard, [Sensor("VCore", Voltage, Some(1.25))], false)]).voltage
      == Some(1.25)
  {
    var a := Sensor("CPU Temp", Temperature, Some(50.0));
    var b := Sensor("VCore", Voltage, Some(1.25));
    var cpu := Device("CPU", Cpu, [a], false);
    var board := Device("Board", Motherboard, [b], false);
    assert NamesCoreVoltage("VCore") by {
      assert "VCore"[..5] == "VCore";
    }
    var r1 := CpuSensorStep(Unset, a);
    assert r1.voltage.None?;
    assert [a][1..] == [];
    assert DeviceStep(Unset, cpu) == ScanCpu(r1, []) == r1;
    assert [b][1..] == [];
    assert MotherboardVoltage([b]) == Some(1.25);
    var r2 := DeviceStep(r1, board);
    assert r2.voltage == Some(1.25);
    assert [cpu, board][1..] == [board];
    assert [board][1..] == [];
    assert Sweep(Unset, [cpu, board]) == Sweep(r1, [board]);
    assert Sweep(r1, [board]) == Sweep(r2, []) == r2;
  }

  /** When the monitor fails on the first device, the snapshot carries no readings at all. */
  lemma ProviderFailureLeavesUnset(devices: seq<Device>)
    requires devices != [] && devices[0].refreshFails
    ensures SelectReadings(devices) == Unset
  {
  }

  /** One line of the sensor listing: a device's name and kind with one of its sensors. */
  datatype SensorEntry = SensorEntry(hardware: string, hardwareKind: HardwareKind, sensor: Sensor)

  /** The lines for one device, in its sensor order. */
  function Entries(d: Device): (es: seq<SensorEntry>)
    ensures |es| == |d.sensors|
    ensures forall i :: 0 <= i < |es| ==> es[i] == SensorEntry(d.name, d.kind, d.sensors[i])
  {
    seq(|d.sensors|, i requires 0 <= i < |d.sensors| => SensorEntry(d.name, d.kind, d.sensors[i]))
  }

  /** Every sensor of the devices reached before a refresh fails, device by device. */
  function Listing(devices: seq<Device>): (entries: seq<SensorEntry>)
    ensures |entries| == SensorCount(Reached(devices))
    ensures forall d, x :: d in Reached(devices) && x in d.sensors ==> SensorEntry(d.name, d.kind, x) in entries
    ensures forall e :: e in entries ==> exists d :: d in Reached(devices) && Lists(d, e)
    decreases |devices|
  {
    if devices == [] || devices[0].refreshFails then []
    else
      var d := devices[0];
      var head := Entries(d);
      var tail := Listing(devices[1..]);
      assert Reached(devices) == [d] + Reached(devices[1..]);
      assert forall x :: x in d.sensors ==> SensorEntry(d.name, d.kind, x) in head by {
        forall x | x in d.sensors ensures SensorEntry(d.name, d.kind, x) in head {
          var i :| 0 <= i < |d.sensors| && d.sensors[i] == x;
          assert head[i] == SensorEntry(d.name, d.kind, x);
        }
      }
      assert forall e :: e in head ==> Lists(d, e);
      head + tail
  }

  /** The lines for a run of devices, device by device. */
  function Flatten(ds: seq<Device>): (es: seq<SensorEntry>)
    ensures |es| == SensorCount(ds)
    decreases |ds|
  {
    if ds == [] then [] else Entries(ds[0]) + Flatten(ds[1..])
  }

  /** The listing goes device by device and, within a device, in sensor
      order: sensor `j` of the `k`-th reached device sits right after the
      sensors of the devices before it. */
  lemma ListingOrder(devices: seq<Device>, k: nat, j: nat)
    requires k < |Reached(devices)| && j < |Reached(devices)[k].sensors|
    ensures var d := Reached(devices)[k]; var at := SensorCount(Reached(devices)[..k]) + j;
      at < |Listing(devices)| && Listing(devices)[at] == SensorEntry(d.name, d.kind, d.sensors[j])
  {
    ListingFlattens(devices);
    FlattenOrder(Reached(devices), k, j);
  }

  lemma {:induction false} ListingFlattens(devices: seq<Device>)
    ensures Listing(devices) == Flatten(Reached(devices))
    decreases |devices|
  {
    if devices != [] && !devices[0].refreshFails {
      ListingFlattens(devices[1..]);
      assert Reached(devices) == [devices[0]] + Reached(devices[1..]);
      assert ([devices[0]] + Reached(devices[1..]))[1..] == Reached(devices[1..]);
    }
  }

  lemma {:induction false} FlattenOrder(ds: seq<Device>, k: nat, j: nat)
    requires k < |ds| && j < |ds[k].sensors|
    ensures var at := SensorCount(ds[..k]) + j;
      at < |Flatten(ds)| && Flatten(ds)[at] == SensorEntry(ds[k].name, ds[k].kind, ds[k].sensors[j])
    decreases |ds|
  {
    var head := Entries(ds[0]);
    var tail := Flatten(ds[1..]);
    assert Flatten(ds) == head + tail;
    if k == 0 {
      assert ds[..0] == [];
      assert (head + tail)[j] == head[j];
    } else {
      FlattenOrder(ds[1..], k - 1, j);
      assert ds == [ds[0]] + ds[1..];
      CountAfterFirst(ds[0], ds[1..], k);
      var at := SensorCount(ds[1..][..k - 1]) + j;
      assert (head + tail)[|head| + at] == tail[at];
    }
  }

  lemma CountAfterFirst(d: Device, rest: seq<Device>, k: nat)
    requires 1 <= k <= |rest| + 1
    ensures ([d] + rest)[..k] == [d] + rest[..k - 1]
    ensures SensorCount(([d] + rest)[..k]) == |d.sensors| + SensorCount(rest[..k - 1])
  {
    assert ([d] + rest)[..k] == [d] + rest[..k - 1];
    assert ([d] + rest[..k - 1])[1..] == rest[..k - 1];
  }

  /** `e` lists one of the sensors of `d`. */
  predicate Lists(d: Device, e: SensorEntry)
  {
    e.hardware == d.name && e.hardwareKind == d.kind && e.sensor in d.sensors
  }

  function SensorCount(devices: seq<Device>): nat
  {
    if devices == [] then 0 else |devices[0].sensors| + SensorCount(devices[1..])
  }
}

=== FILE: sorting.dfy ===
/** Ascending sort of benchmark scores (`std::sort` on doubles), specified as
    the unique sorted permutation of its input. */
module Sorting {

  predicate Sorted(s: seq<real>)
  {
    forall i, j :: 0 <= i < j < |s| ==> s[i] <= s[j]
  }

  /** `ss` is `s` rearranged into ascending order. */
  predicate IsSortedPermutation(ss: seq<real>, s: seq<real>)
  {
    |ss| == |s| && Sorted(ss) && multiset(ss) == multiset(s)
  }

  /** Every element of `t` is at least `h`. */
  predicate AllAtLeast(h: real, t: seq<real>)
  {
    forall i :: 0 <= i < |t| ==> h <= t[i]
  }

  /** Places `x` into the sorted sequence `s`. */
  function Insert(x: real, s: seq<real>): (r: seq<real>)
    requires Sorted(s)
    ensures multiset(r) == multiset([x] + s)
    ensures Sorted(r)
  {
    if s == [] || x <= s[0] then
      PrependKeepsSorted(x, s);
      [x] + s
    else
      assert s == [s[0]] + s[1..];
      assert Sorted(s[1..]) && AllAtLeast(s[0], s[1..]);
      var rest := Insert(x, s[1..]);
      LowerBoundOfPermutation(s[0], rest, x, s[1..]);
      PrependKeepsSorted(s[0], rest);
      [s[0]] + rest
  }

  lemma PrependKeepsSorted(h: real, t: seq<real>)
    requires Sorted(t) && AllAtLeast(h, t)
    ensures Sorted([h] + t)
  {
    var s := [h] + t;
    forall i, j | 0 <= i < j < |s| ensures s[i] <= s[j] {
      assert s[j] == t[j - 1];
      if i > 0 {
        assert s[i] == t[i - 1];
      }
    }
  }

  lemma LowerBoundOfPermutation(h: real, t: seq<real>, x: real, u: seq<real>)
    requires multiset(t) == multiset([x] + u)
    requires h <= x && AllAtLeast(h, u)
    ensures AllAtLeast(h, t)
  {
    forall i | 0 <= i < |t| ensures h <= t[i] {
      assert t[i] in multiset([x] + u);
      if t[i] != x {
        assert t[i] in u;
      }
    }
  }

  /** Insertion sort. */
  function Sort(s: seq<real>): (r: seq<real>)
    ensures IsSortedPermutation(r, s)
  {
    if s == [] then []
    else
      assert s == [s[0]] + s[1..];
      Insert(s[0], Sort(s[1..]))
  }

  /** Two ascending sequences holding the same scores are the same sequence:
      the sorted order of a score list does not depend on how it was built. */
  lemma {:induction false} SortedPermutationUnique(a: seq<real>, b: seq<real>)
    requires Sorted(a) && Sorted(b) && multiset(a) == multiset(b)
    ensures a == b
    decreases |a|
  {
    assert |a| == |multiset(a)| == |multiset(b)| == |b|;
    if |a| > 0 {
      assert |b| > 0;
      SmallestComesFirst(a, b);
      SmallestComesFirst(b, a);
      assert a[0] == b[0];
      DropFirst(a);
      DropFirst(b);
      SortedPermutationUnique(a[1..], b[1..]);
      SameHeadSameTail(a, b);
    }
  }

  lemma SameHeadSameTail(a: seq<real>, b: seq<real>)
    requires |a| > 0 && |b| > 0 && a[0] == b[0] && a[1..] == b[1..]
    ensures a == b
  {
    assert a == [a[0]] + a[1..];
    assert b == [b[0]] + b[1..];
  }

  /** The head of a sorted sequence is at most every element of the same multiset. */
  lemma SmallestComesFirst(a: seq<real>, b: seq<real>)
    requires Sorted(b) && |a| > 0 && |b| > 0 && multiset(a) == multiset(b)
    ensures b[0] <= a[0]
  {
    assert a[0] in multiset(b);
    var j :| 0 <= j < |b| && b[j] == a[0];
  }

  /** Dropping the head of a sorted sequence keeps it sorted and removes one copy of the head. */
  lemma DropFirst(s: seq<real>)
    requires Sorted(s) && |s| > 0
    ensures Sorted(s[1..])
    ensures multiset(s[1..]) == multiset(s) - multiset{s[0]}
  {
    assert s == [s[0]] + s[1..];
  }
}

=== FILE: stress_engine.dfy ===
/** The native stress-test controller: three process-wide globals (the
    running flag, the paused flag and the list of worker threads) and the
    exported calls that read or change them. A worker thread is kept only as
    its contribution to the list's size; the load it generates is not part of
    this model. Every call is one atomic step of a serial caller. */
module StressEngine {
  import opened Common

  /** `threads` is the size of the worker-thread list. */
  datatype Engine = Engine(running: bool, paused: bool, threads: nat)

  /** The globals at library load: not running, not paused, no workers. */
  const Loaded := Engine(false, false, 0)

  /** What an exported call leaves behind, and the boolean it returns. */
  datatype Transition = Transition(next: Engine, ok: bool)

  /** The workload lifecycle as the bridge presents it. */
  datatype Phase = Idle | Running | Paused

  function PhaseOf(e: Engine): Phase
  {
    if !e.running then Idle else if e.paused then Paused else Running
  }

  /** The permitted lifecycle moves: Idle to Running, Running to Paused,
      Paused to Running, Running or Paused to Idle, or staying put. */
  predicate Lifecycle(from: Phase, to: Phase)
  {
    || from == to
    || (from == Idle && to == Running)
    || (from == Running && to == Paused)
    || (from == Paused && to == Running)
    || (from != Idle && to == Idle)
  }

  /** A stopped engine holds no worker threads. */
  predicate Valid(e: Engine)
  {
    !e.running ==> e.threads == 0
  }

  /** Number of workers a start request spawns: the loop
      `for (i = 0; i < threadCount; i++)` runs `threadCount` times, or not at all. */
  function WorkersFor(threadCount: Int32): nat
  {
    if threadCount < 0 then 0 else threadCount as nat
  }

  /** `GetActiveThreadCount`: the size of the worker list. */
  function ActiveThreadCount(e: Engine): (n: int)
    ensures n >= 0
    ensures Valid(e) && !e.running ==> n == 0
  {
    e.threads
  }

  /** `StartStressTest`: refused while running; otherwise running, unpaused,
      with a fresh list of `threadCount` workers. */
  function Start(e: Engine, threadCount: Int32): (t: Transition)
    ensures t.ok <==> PhaseOf(e) == Idle
    ensures !t.ok ==> t.next == e
    ensures t.ok ==> PhaseOf(t.next) == Running && ActiveThreadCount(t.next) == WorkersFor(threadCount)
    ensures t.ok ==> Valid(t.next)
    ensures Lifecycle(PhaseOf(e), PhaseOf(t.next))
  {
    if e.running then Transition(e, false)
    else Transition(Engine(true, false, WorkersFor(threadCount)), true)
  }

  /** `StopStressTest`: refused unless running; otherwise not running with
      every worker joined and the list cleared. The paused flag is left as it
      was. */
  function Stop(e: Engine): (t: Transition)
    ensures t.ok <==> PhaseOf(e) != Idle
    ensures !t.ok ==> t.next == e
    ensures t.ok ==> PhaseOf(t.next) == Idle && ActiveThreadCount(t.next) == 0
    ensures t.next.paused == e.paused
    ensures Valid(e) ==> Valid(t.next)
    ensures Lifecycle(PhaseOf(e), PhaseOf(t.next))
  {
    if !e.running then Transition(e, false)
    else Transition(e.(running := false, threads := 0), true)
  }

  /** `PauseStressTest`: refused unless running; otherwise sets the paused flag. */
  function Pause(e: Engine): (t: Transition)
    ensures t.ok <==> PhaseOf(e) != Idle
    ensures !t.ok ==> t.next == e
    ensures t.ok ==> PhaseOf(t.next) == Paused
    ensures t.next.running == e.running && ActiveThreadCount(t.next) == ActiveThreadCount(e)
    ensures Lifecycle(PhaseOf(e), PhaseOf(t.next))
  {
    if !e.running then Transition(e, false)
    else Transition(e.(paused := true), true)
  }

  /** `ResumeStressTest`: refused unless running; otherwise clears the paused flag. */
  function Resume(e: Engine): (t: Transition)
    ensures t.ok <==> PhaseOf(e) != Idle
    ensures !t.ok ==> t.next == e
    ensures t.ok ==> PhaseOf(t.next) == Running
    ensures t.next.running == e.running && ActiveThreadCount(t.next) == ActiveThreadCount(e)
    ensures Lifecycle(PhaseOf(e), PhaseOf(t.next))
  {
    if !e.running then Transition(e, false)
    else Transition(e.(paused := false), true)
  }

  /** Stopping a paused workload leaves the native paused flag set; the next
      start clears it again. */
  lemma StopKeepsPausedFlag(e: Engine)
    requires e.running && e.paused
    ensures Stop(e).ok && Stop(e).next.paused && !Stop(e).next.running
    ensures !Start(Stop(e).next, 1).next.paused
  {
  }
}
